=== FILE: README.md ===
# datatest-derive: argument planning of `#[files]` and `#[data]`

This project models, in Dafny, the planning logic of the two attribute macros
of `datatest-derive`, the code generator of the `datatest` data-driven test
harness.

- `#[files("<root>", { arg in "<regex>" [if !<pred>], arg = "<template>", ... })]`
  turns a test function into a file-driven test. The annotation is parsed into
  rules and collected into a map keyed by argument name. The function's
  `#[test]`, `#[bench]` and `#[ignore]` markers are removed. Then every declared
  parameter is matched with its rule. The result is the descriptor's `params`
  list, the index of the single pattern rule, the pattern's ignore predicate,
  and the arguments the trampoline builds from `paths_arg`.
- `#[data(<source>)]` turns a test function into a case-driven test. The case
  source is a string literal (a YAML file) or an expression. The case parameter
  is the first parameter, or the second for a bench function, with one level of
  reference removed. The generated `describe` wraps every produced case and
  fails when there are none.

Everything is modelled over plain datatypes: tokens, attributes, parameters,
rules, plans and descriptors. The Rust text the macros emit is not modelled.

Files:

- `results.dfy` holds `Result` and `Option`.
- `rules.dfy` holds the annotation tokens, `TemplateArg::parse`, the rule list
  and the rule map.
- `attrs.dfy` holds `handle_common_attrs`.
- `signature.dfy` holds the matcher loop of `files_internal`, its pattern
  checks and the trampoline's argument list.
- `data.dfy` holds `DataTestArgs`, the case-parameter choice and `describe`.
- `expand.dfy` holds both macros end to end, and an example: the rules
  `input in "(.*)\.in"` and `output = "${1}.out"` on `fn run(input: &str, output: &str)`.

How the model is organised:

- The matcher is written as `files_internal` runs it: one `Step` per parameter,
  folded by `ScanPrefix`, with the first error ending the scan.
- Its contract is stated against a separate, position-by-position account.
  `Fault` says what is wrong with a single parameter. `PatternBound` says a
  parameter is bound to a pattern. `Realizes` says what a plan must hold for a
  given signature.
- Rule parsing is checked against a printer (`RenderRule`, `RenderRules`).
- Marker removal is checked against a one-pass reference (`StripFirst`).
- `describe` is checked against unwrapping its result (`UnwrapAll`).

Behaviour of the code that is easy to misread:

- The bench check in the matcher is inside the arm for a simple `ident: Type`
  parameter. A bench function whose first parameter is not a simple binding is
  therefore rejected with "unexpected argument" at position 0. The type of the
  bench parameter is never checked. Both are modelled as the code does them.
- `parse_macro_input!` rejects tokens left over after the annotation. This
  check runs after the braced rule list has been parsed, so an error inside the
  braces is reported first.
- A lone identifier parses as a `syn::Path`, so `if !skip` is accepted
  (`Rules.ParseIdentGuard`).
- The matcher only looks up the rules of declared parameters. A rule that no
  parameter uses is accepted silently, and so is a second pattern rule, which
  the documentation of `files_internal` rules out (see Findings).
  `Expansion.ExpandFiles` models the macro as written.
- Rules that repeat a name are collected like a `HashMap`, so the later rule
  wins. Only rules with distinct names can be reordered freely
  (`Rules.DuplicateNameLaterWins`).
- Diagnostics carry the argument name or position instead of a span.
- The case parameter of `#[data]` loses `&mut` as well as `&`, but the call
  passes `&arg`. So a `&mut` case parameter does not get its declared type back
  (`DataTests.CaseParamRoundTrip`).
- `data_internal` does not diagnose two signatures. A function with no
  captured case parameter gets a trampoline parameter without a type. Any
  parameter after the case parameter is never passed. `Expansion.ExpandData`
  succeeds on both, as the macro does; the failure appears only when the
  generated code is compiled.

## Model

| member | source | states |
|---|---|---|
| `Rules.ParseRule` | datatest-derive/src/lib.rs:23-48 | a parsed rule is a pattern exactly when the marker is `in` and a template exactly when it is `=`; the name and string come from the first and third tokens; only a pattern carries an ignore predicate, only when `if !` follows the string, and it is the path (or lone identifier) after the `!`; the unconsumed tokens are exactly those after the third token, or after the sixth when there is a guard; the rule is accepted exactly when it has an identifier, `in` or `=`, a string and, after `in`, a complete `if !<path>` whenever an `if` follows; each failure is named by the first token that is missing or wrong (`ExpectedIdent`, `ExpectedEq`, `ExpectedString`, `ExpectedBang`, `ExpectedPath`) |
| `Rules.ParseIdentGuard` | datatest-derive/src/lib.rs:36-39 | a lone identifier after `if !` is taken as a one-segment path, so `input in "..." if !skip` parses to a pattern whose predicate is `skip` |
| `Rules.ParseRenderRule` | datatest-derive/src/lib.rs:23-48 | every well-formed rule, written as tokens and followed by any tokens, parses back to itself and leaves those tokens unconsumed; the one exception is an unguarded pattern followed by `if`, which starts a guard |
| `Rules.ParseRules` | datatest-derive/src/lib.rs:72 | a parsed comma-terminated list is made only of well-formed rules (no template carries an ignore predicate), and empty content gives the empty list |
| `Rules.ParseRulesCons` | datatest-derive/src/lib.rs:72 | a rule followed by a comma and a list that parses is put in front of that list; the comma is a separator, not part of either rule |
| `Rules.ParseRenderRules` | datatest-derive/src/lib.rs:72 | round trip of the rule list: every well-formed list, with or without a trailing comma, parses back to the same list |
| `Rules.ParsedRuleIsRendered` | datatest-derive/src/lib.rs:23-48 | converse of the rule round trip: an accepted rule's tokens are exactly the printed rule followed by the unconsumed tokens |
| `Rules.ParsedRulesAreRendered` | datatest-derive/src/lib.rs:72 | converse of the list round trip: whatever the list parser accepts is the printing of the returned rules, with a trailing comma exactly when the content ends in one, so a missing comma, a stray token or a guard after a template is rejected |
| `Rules.ParsedAnnotationIsRendered` | datatest-derive/src/lib.rs:65-86 | an accepted annotation is exactly the root string, a comma and the braced printing of a rule list, and its map is built from that list |
| `Rules.TemplateGuardRejected` | datatest-derive/src/lib.rs:36-40 | an `if !<path>` after a template rule is not consumed, so the list parser fails for want of a comma |
| `Rules.RuleMap` | datatest-derive/src/lib.rs:73-79 | the map's keys are exactly the rule names; each key maps to a rule of the list with that name; the last rule of the list is always what its name maps to |
| `Rules.RuleMapLaterWins` | datatest-derive/src/lib.rs:73-79 | for every name, repeated or not, the map holds the last rule of the list that binds it |
| `Rules.RuleMapSelectsNamedRule` | datatest-derive/src/lib.rs:73-79 | with distinct names, every rule of the list is the value of its own name |
| `Rules.RuleMapOrderIndependent` | datatest-derive/src/lib.rs:73-79 | two orderings of the same rules with distinct names give the same map |
| `Rules.DuplicateNameLaterWins` | datatest-derive/src/lib.rs:73-79 | with a repeated name the later rule replaces the earlier one, so the two orders give different maps |
| `Rules.ParseFilesArgs` | datatest-derive/src/lib.rs:65-86 | success needs exactly a root string, a comma and one braced group; the root is the string; the rules are the map of the braced list |
| `Rules.ParseFilesAnnotation` | datatest-derive/src/lib.rs:65-86 | round trip of the whole annotation: the root and the map of the written rules come back |
| `Attributes.Position` | datatest-derive/src/lib.rs:295-298 | the position found is the first attribute whose path is the given identifier, and there is none exactly when no attribute has that path |
| `Attributes.RemoveFirst` | datatest-derive/src/lib.rs:299-301 | an absent marker leaves the list alone; a present one makes it exactly one attribute shorter |
| `Attributes.HandleCommonAttrs` | datatest-derive/src/lib.rs:291-324 | `ignore` and `bench` are true exactly when such a marker is present; the kept list equals the one-pass reference that drops the first `test`, `bench` and `ignore` |
| `Attributes.StripFirstOneAtATime` | datatest-derive/src/lib.rs:295-319 | removing the first occurrence of one marker and then the rest is the same as one pass over all of them, so the three removals in sequence do not disturb each other |
| `Attributes.PresentAfterRemoval` | datatest-derive/src/lib.rs:304-316 | removing the first `test` does not hide a `bench` or `ignore` marker, and removing `bench` does not hide `ignore` |
| `Attributes.StripFirstKeepsOthers` | datatest-derive/src/lib.rs:295-319 | every non-marker attribute survives, in its original order |
| `Attributes.StripFirstLength` | datatest-derive/src/lib.rs:295-319 | exactly one attribute is removed per marker present (a second `#[test]` stays) |
| `Attributes.HandleCommonAttrsKeepsOthers` | datatest-derive/src/lib.rs:291-324 | the marker removal keeps the other attributes in order, shortens the list by the number of markers present, and reports `bench` and `ignore` |
| `Signature.Step` | datatest-derive/src/lib.rs:186-229 | one turn fails exactly when the parameter is not a simple binding, or is not the bench parameter and either has no rule or is a second pattern; a successful turn appends one invoke entry and at most one `params` entry, keeps a pattern index once set, and sets it exactly when the parameter is bound to a pattern |
| `Signature.ScanPrefix` | datatest-derive/src/lib.rs:185-230 | after the first `n` parameters the loop has failed exactly when one of them is faulty, with the first fault's error; otherwise `params` and the invoke list are aligned with the non-bench parameters and `pattern_idx` is the one pattern-bound position so far |
| `Signature.StepSpec` | datatest-derive/src/lib.rs:186-229 | one turn of the loop keeps the loop invariant or stops with the fault of that parameter |
| `Signature.MatchSignature` | datatest-derive/src/lib.rs:173-245 | success holds exactly when no parameter is faulty and some parameter is bound to a pattern; "no pattern" is returned exactly when nothing is faulty and no parameter is bound to a pattern; any other error is the first parameter's fault; a success's plan has one entry per non-bench parameter in declared order, each that parameter's rule value, and `pattern_idx` names the only pattern entry and carries its ignore predicate |
| `Signature.MatchReportsFirstFault` | datatest-derive/src/lib.rs:202-228 | the first parameter that is not simple, has no rule, or is a second pattern decides the error, whatever follows |
| `Signature.MatchNeedsExactlyOnePattern` | datatest-derive/src/lib.rs:203-209 | a successful match has exactly one pattern-bound parameter, and two pattern-bound parameters always make it fail |
| `Signature.UnusedPatternRuleAccepted` | datatest-derive/src/lib.rs:202-209 | `fn t(a: T)` against `{ a in "x", b in "y" }` matches as written, though the annotation defines two pattern rules; the checked matcher rejects it |
| `Signature.MatchSignatureChecked` | datatest-derive/src/lib.rs:116 | with the documented check, a match succeeds exactly when the plain match does and the annotation has exactly one pattern rule; that rule is the one the bound parameter names |
| `Signature.CheckedMatchUsesEveryPatternRule` | datatest-derive/src/lib.rs:116 | after a checked match, every pattern rule of the annotation is bound to a declared parameter |
| `Signature.BenchStepShift` | datatest-derive/src/lib.rs:192-199 | for a bench function, the turn at declared position `n` behaves like the turn at `n - 1` without the bench parameter, error positions moved by one |
| `Signature.BenchScanShift` | datatest-derive/src/lib.rs:192-199 | the scan of a bench function over `n + 1` parameters is the scan of its parameters after the first over `n`, plus the bench parameter passed through in front |
| `Signature.BenchShift` | datatest-derive/src/lib.rs:192-199 | a bench function is matched as the function without its first parameter; plan entry `i` comes from declared parameter `i + 1`, and the bench parameter's name is never looked up |
| `Signature.InvokeIndicesInRange` | datatest-derive/src/lib.rs:215 | every `paths_arg` index of an aligned plan is below the length of `params`, and the bench position takes no index |
| `Signature.Invoke` | datatest-derive/src/lib.rs:276-278 | corrected trampoline, in which the bench parameter receives the trampoline's own `bencher` (see Findings): its argument list succeeds exactly when every index is within `paths_arg`; it has one value per parameter: the bencher for the bench parameter and the indexed path for the others |
| `Signature.AlignedPlanDelivers` | datatest-derive/src/lib.rs:213-216 | for an aligned plan and one path per `params` entry, every declared parameter receives the path of its own plan position and the bench parameter receives the bencher |
| `Signature.MatchedPlanInvokes` | datatest-derive/src/lib.rs:264-278 | when the harness passes one path per descriptor `params` entry to a matched plan, the corrected trampoline cannot index out of bounds, and declared parameter `j` receives path `j - Offset(bench)` |
| `Signature.InvokeAsWritten` | datatest-derive/src/lib.rs:192-196 | the trampoline as written resolves only when every passed-through parameter is named `bencher`; when they all are, it gives exactly the corrected trampoline's result, so a bench parameter named `bencher` works |
| `Signature.BenchParameterNameUnbound` | datatest-derive/src/lib.rs:250-278 | `fn scan(b: &mut Bencher, input: &str)` matches, but the generated call names `b`, which the trampoline does not bind |
| `DataTests.ParseCaseSource` | datatest-derive/src/lib.rs:335-344 | a lone string literal is a file source; any other non-empty token list is an expression kept verbatim; a string followed by more tokens, and the empty input, are errors |
| `DataTests.SelectCaseParam` | datatest-derive/src/lib.rs:396-412 | the case type is absent exactly when there is no captured parameter at the case position (1 for a bench function with parameters, 0 otherwise); the case is passed by reference only when a type was found |
| `DataTests.CaseParamRoundTrip` | datatest-derive/src/lib.rs:409-412 | the case is passed by reference exactly when the declared type is a reference; exactly one level is removed; putting `&` back restores a non-`mut` declared type, and never a `&mut` one |
| `DataTests.Wrap` | datatest-derive/src/lib.rs:451-458 | a wrapped case unwraps to the produced case, and is a bench case exactly for a bench test |
| `DataTests.WrapAll` | datatest-derive/src/lib.rs:449-459 | one wrapped case per produced case, with the case value, name and location kept and the bench or test variant chosen by the bench flag |
| `DataTests.Describe` | datatest-derive/src/lib.rs:448-462 | `describe` fails exactly when the source produced no case; otherwise it returns as many cases as were produced, with names and locations unchanged |
| `DataTests.UnwrapWrapAll` | datatest-derive/src/lib.rs:449-459 | unwrapping the wrapped cases gives back the produced cases |
| `DataTests.DescribeRoundTrip` | datatest-derive/src/lib.rs:448-462 | for a non-empty source, `describe` succeeds, loses nothing (unwrapping gives back the produced cases in order), and marks every case with the test kind |
| `Expansion.QualifiedName` | datatest-derive/src/lib.rs:265 | the registered name is the module path, `::`, then the function name |
| `Expansion.QualifiedNameUnique` | datatest-derive/src/lib.rs:434 | as function names contain no `:`, two tests share a registered name only when module and function both agree |
| `Expansion.ExpandFiles` | datatest-derive/src/lib.rs:152-284 | an annotation error is reported exactly when the annotation does not parse; on success the descriptor carries the qualified name, the parsed root, the `ignore` and `bench` markers, and a plan that realises the signature against the parsed rules; the function keeps its attributes minus the first markers; an annotation error carries the parser's error unchanged, and a signature error is the matcher's error |
| `Expansion.ExpandFilesIgnoresRuleOrder` | datatest-derive/src/lib.rs:73-79 | the same rules with distinct names, written in any order and with or without a trailing comma, give the identical expansion: the descriptor follows the signature, not the annotation |
| `Expansion.ExpandFilesDependsOnParse` | datatest-derive/src/lib.rs:157-158 | two annotations that parse alike give the same expansion |
| `Expansion.ExampleMatch` | datatest-derive/src/lib.rs:185-245 | `fn run(input: &str, output: &str)` against `input in "(.*)\.in"` and `output = "${1}.out"` gives params `["(.*)\.in", "${1}.out"]`, pattern index 0, and reads `paths_arg[0]` and `paths_arg[1]` |
| `Expansion.ExampleInputOutput` | datatest-derive/src/lib.rs:260-272 | the example's descriptor has root `tests`, params in signature order and pattern index 0, whichever order the two rules are written in |
| `Expansion.ExpandData` | datatest-derive/src/lib.rs:364-467 | a data test expands exactly when its case source parses; the descriptor carries the qualified name, the source, the `ignore` and `bench` markers and the selected case parameter; the function keeps its attributes minus the first markers; a failure is the case-source parser's error unchanged |
| `Expansion.BenchDataTestCases` | datatest-derive/src/lib.rs:398-426 | a `#[bench]` data test takes its case type from the second parameter (with one reference level removed when it is passed by reference), and `describe` wraps every case as a bench case |

## Findings

| source | as written | input that shows it | evidently intended | confidence | as-written member | corrected member |
|---|---|---|---|---|---|---|
| datatest-derive/src/lib.rs:195 | the bench parameter of a `#[files]` bench test is passed to the test function by the name the user gave it, but the trampoline's own parameter is always named `bencher` (line 253) | `#[bench] #[files("tests", { input in "(.*)\\.in" })] fn scan(b: &mut Bencher, input: &str)`: the generated call is `scan(b, ...)` and `b` is not bound in the trampoline, so the expansion does not compile | pass the trampoline's `bencher`, as the `#[data]` path does (line 418) | medium; not executed | `Signature.InvokeAsWritten` (counterexample `Signature.BenchParameterNameUnbound`) | `Signature.Invoke` (property `Signature.MatchedPlanInvokes`) |
| datatest-derive/src/lib.rs:202-209 | the loop looks up only the rules of declared parameters, so a pattern rule that no parameter uses is never seen, although the documentation (line 116) says there must be only one pattern rule and the error text (line 241) asks for exactly one | `#[files("tests", { a in "x", b in "y" })] fn t(a: &str)` expands, and the rule for `b` is dropped | reject an annotation that does not define exactly one pattern rule | low; not executed | `Signature.UnusedPatternRuleAccepted` (over `Signature.MatchSignature`) | `Signature.MatchSignatureChecked` (property `Signature.CheckedMatchUsesEveryPatternRule`) |

## Left out

- Token emission with `quote!`/`proc_macro2`: the text of the descriptor, the trampoline and the registration is code synthesis over a foreign library. Its inputs are modelled as records instead (`FilesTestDesc`, the invoke list, `DataTestDesc`).
- `syn` internals and spans: errors are an enum without source locations. The parse of Rust expressions for `#[data]` is not modelled; any non-empty token list that does not start with a string is taken as an expression.
- Parsing of the annotated function itself (`parse_macro_input!(func as ItemFn)`): the function is given as a `FnItem`.
- `test_registration`, the `ctor` startup hook and the `static mut RegistrationNode` splice: this is process-start global state, and the `register` list code is not part of this model.
- The stable/nightly `Channel` wrappers (`files_stable`, `files_nightly`, `data_stable`, `data_nightly`): they only dispatch to the shared functions.
- The runtime harness, regular-expression evaluation, the `DeriveArg`/`TakeArg` conversions and the `datatest::yaml` loader: these are external. Derived values are modelled as `FromPath(type, path)`, and the YAML source as the `Literal` case source.
- `quote!(#pat_ident)` also emits `ref`/`mut` binding modifiers; binding modes are not modelled.
- Rules.ParsedRuleIsRendered, Rules.ParsedRulesAreRendered and Rules.ParsedAnnotationIsRendered: stated for content whose guards are written as path tokens (`PathGuards`). A guard written as a lone identifier parses to the same rule as its one-segment path (`Rules.ParseIdentGuard`), so it prints back as a path token, not as the identifier.

=== FILE: attrs.dfy ===
/** `handle_common_attrs`: the function-level markers `#[test]`, `#[bench]`
    and `#[ignore]` are taken off the annotated function (the macro registers
    the test itself) and the presence of `bench` and `ignore` is reported. */
module Attributes {
  import opened Results

  /** An outer attribute `#[path args]`; only its path decides whether it is
      one of the markers. */
  datatype Attribute = Attribute(path: seq<string>, args: string)

  /** What the rest of the expansion needs to know about the markers. */
  datatype FuncInfo = FuncInfo(ignore: bool, bench: bool)

  const TestMarker := "test"
  const BenchMarker := "bench"
  const IgnoreMarker := "ignore"
  const Markers: set<string> := {TestMarker, BenchMarker, IgnoreMarker}

  /** `attr.path.is_ident(id)`: the path is exactly the one identifier `id`. */
  predicate IsIdent(a: Attribute, id: string) {
    a.path == [id]
  }

  predicate Present(attrs: seq<Attribute>, id: string) {
    exists i :: 0 <= i < |attrs| && IsIdent(attrs[i], id)
  }

  /** `Iterator::position`: the index of the first attribute that is `id`. */
  function Position(attrs: seq<Attribute>, id: string): (r: Option<nat>)
    ensures r.Some? ==> r.value < |attrs| && IsIdent(attrs[r.value], id)
    ensures r.Some? ==> forall j :: 0 <= j < r.value ==> !IsIdent(attrs[j], id)
    ensures r.None? <==> !Present(attrs, id)
  {
    if |attrs| == 0 then None
    else if IsIdent(attrs[0], id) then Some(0)
    else match Position(attrs[1..], id)
      case None =>
        assert forall j :: 1 <= j < |attrs| ==> attrs[j] == attrs[1..][j - 1];
        None
      case Some(p) => Some(p + 1)
  }

  /** Removes the first attribute that is `id`, if there is one. */
  function RemoveFirst(attrs: seq<Attribute>, id: string): (r: seq<Attribute>)
    ensures !Present(attrs, id) ==> r == attrs
    ensures |r| == if Present(attrs, id) then |attrs| - 1 else |attrs|
  {
    match Position(attrs, id)
    case None => attrs
    case Some(p) => attrs[..p] + attrs[p + 1..]
  }

  /** The three removals of `handle_common_attrs`, in its order: `test`, then `bench`,
      then `ignore`; each flag is whether its marker was found. */
  function HandleCommonAttrs(attrs: seq<Attribute>): (r: (seq<Attribute>, FuncInfo))
    ensures r.1.ignore <==> Present(attrs, IgnoreMarker)
    ensures r.1.bench <==> Present(attrs, BenchMarker)
    ensures r.0 == StripFirst(attrs, Markers)
  {
    var noTest := RemoveFirst(attrs, TestMarker);
    var benchPos := Position(noTest, BenchMarker);
    var noBench := RemoveFirst(noTest, BenchMarker);
    var ignorePos := Position(noBench, IgnoreMarker);
    var stripped := RemoveFirst(noBench, IgnoreMarker);
    PresentAfterRemoval(attrs, TestMarker, BenchMarker);
    PresentAfterRemoval(noTest, BenchMarker, IgnoreMarker);
    PresentAfterRemoval(attrs, TestMarker, IgnoreMarker);
    StripFirstOneAtATime(attrs, Markers, TestMarker);
    assert Markers - {TestMarker} == {BenchMarker, IgnoreMarker};
    StripFirstOneAtATime(noTest, {BenchMarker, IgnoreMarker}, BenchMarker);
    assert {BenchMarker, IgnoreMarker} - {BenchMarker} == {IgnoreMarker};
    StripFirstOneAtATime(noBench, {IgnoreMarker}, IgnoreMarker);
    assert {IgnoreMarker} - {IgnoreMarker} == {};
    StripFirstNothing(stripped);
    (stripped, FuncInfo(ignorePos.Some?, benchPos.Some?))
  }

  // ---------------------------------------------------------------------
  // A one-pass reference: walk the attributes once, dropping each marker of
  // `pending` the first time it is met.

  /** The marker an attribute is, if its path is a single identifier in
      `pending`. */
  predicate IsPendingMarker(a: Attribute, pending: set<string>) {
    |a.path| == 1 && a.path[0] in pending
  }

  function StripFirst(attrs: seq<Attribute>, pending: set<string>): seq<Attribute>
    decreases |attrs|
  {
    if |attrs| == 0 then []
    else if IsPendingMarker(attrs[0], pending) then StripFirst(attrs[1..], pending - {attrs[0].path[0]})
    else [attrs[0]] + StripFirst(attrs[1..], pending)
  }

  lemma {:induction false} StripFirstNothing(attrs: seq<Attribute>)
    ensures StripFirst(attrs, {}) == attrs
    decreases |attrs|
  {
    if |attrs| > 0 {
      StripFirstNothing(attrs[1..]);
      assert [attrs[0]] + attrs[1..] == attrs;
    }
  }

  /** Dropping the first `id` and then the rest of `pending` is the same as
      one pass over all of `pending`. */
  lemma {:induction false} StripFirstOneAtATime(attrs: seq<Attribute>, pending: set<string>, id: string)
    requires id in pending
    ensures StripFirst(attrs, pending) == StripFirst(RemoveFirst(attrs, id), pending - {id})
    decreases |attrs|
  {
    if |attrs| == 0 {
    } else if IsIdent(attrs[0], id) {
      assert RemoveFirst(attrs, id) == attrs[1..];
    } else {
      var tail := RemoveFirst(attrs[1..], id);
      RemoveFirstCons(attrs, id);
      var removed := [attrs[0]] + tail;
      assert removed[0] == attrs[0] && removed[1..] == tail;
      if IsPendingMarker(attrs[0], pending) {
        var n := attrs[0].path[0];
        StripFirstOneAtATime(attrs[1..], pending - {n}, id);
        assert pending - {n} - {id} == pending - {id} - {n};
      } else {
        StripFirstOneAtATime(attrs[1..], pending, id);
      }
    }
  }

  /** Behind a head that is not `id`, the removal happens in the tail. */
  lemma RemoveFirstCons(attrs: seq<Attribute>, id: string)
    requires |attrs| > 0 && !IsIdent(attrs[0], id)
    ensures RemoveFirst(attrs, id) == [attrs[0]] + RemoveFirst(attrs[1..], id)
  {
    match Position(attrs[1..], id)
    case None =>
    case Some(p) =>
      assert attrs[..p + 1] + attrs[p + 2..] == [attrs[0]] + (attrs[1..][..p] + attrs[1..][p + 1..]);
  }

  /** Removing one marker does not hide another one. */
  lemma PresentAfterRemoval(attrs: seq<Attribute>, gone: string, other: string)
    requires gone != other
    ensures Present(RemoveFirst(attrs, gone), other) <==> Present(attrs, other)
  {
    match Position(attrs, gone)
    case None =>
    case Some(p) =>
      PresentKept(attrs, p, other);
      PresentNotAdded(attrs, p, other);
  }

  /** An `other` before or after the removed position is still there. */
  lemma PresentKept(attrs: seq<Attribute>, p: nat, other: string)
    requires p < |attrs| && !IsIdent(attrs[p], other)
    ensures Present(attrs, other) ==> Present(attrs[..p] + attrs[p + 1..], other)
  {
    var r := attrs[..p] + attrs[p + 1..];
    if Present(attrs, other) {
      var i :| 0 <= i < |attrs| && IsIdent(attrs[i], other);
      if i < p {
        assert r[i] == attrs[i];
      } else {
        assert r[i - 1] == attrs[i];
      }
    }
  }

  /** Removing an attribute does not make an `other` appear. */
  lemma PresentNotAdded(attrs: seq<Attribute>, p: nat, other: string)
    requires p < |attrs|
    ensures Present(attrs[..p] + attrs[p + 1..], other) ==> Present(attrs, other)
  {
    var r := attrs[..p] + attrs[p + 1..];
    if Present(r, other) {
      var i :| 0 <= i < |r| && IsIdent(r[i], other);
      if i < p {
        assert r[i] == attrs[i];
      } else {
        assert r[i] == attrs[i + 1];
      }
    }
  }

  // ---------------------------------------------------------------------
  // What the one-pass reference keeps.

  /** Every attribute that is not a marker survives, in its original order. */
  function Others(attrs: seq<Attribute>): seq<Attribute>
    decreases |attrs|
  {
    if |attrs| == 0 then []
    else if IsPendingMarker(attrs[0], Markers) then Others(attrs[1..])
    else [attrs[0]] + Others(attrs[1..])
  }

  lemma {:induction false} StripFirstKeepsOthers(attrs: seq<Attribute>, pending: set<string>)
    requires pending <= Markers
    ensures Others(StripFirst(attrs, pending)) == Others(attrs)
    decreases |attrs|
  {
    if |attrs| > 0 {
      var rest := StripFirst(attrs[1..], if IsPendingMarker(attrs[0], pending) then pending - {attrs[0].path[0]} else pending);
      StripFirstKeepsOthers(attrs[1..], if IsPendingMarker(attrs[0], pending) then pending - {attrs[0].path[0]} else pending);
      if !IsPendingMarker(attrs[0], pending) {
        var s := [attrs[0]] + rest;
        assert s[0] == attrs[0] && s[1..] == rest;
      }
    }
  }

  /** The stripped list is the original without the non-marker attributes
      changing, and exactly one attribute shorter per marker present. */
  lemma {:induction false} StripFirstLength(attrs: seq<Attribute>, pending: set<string>)
    ensures |StripFirst(attrs, pending)| == |attrs| - |set id | id in pending && Present(attrs, id)|
    decreases |attrs|
  {
    if |attrs| == 0 {
      assert (set id | id in pending && Present(attrs, id)) == {};
    } else if IsPendingMarker(attrs[0], pending) {
      var n := attrs[0].path[0];
      StripFirstLength(attrs[1..], pending - {n});
      FoundAfterMarker(attrs, pending);
    } else {
      StripFirstLength(attrs[1..], pending);
      FoundAfterOther(attrs, pending);
    }
  }

  /** A pending marker at the head is one more name found than in the tail,
      where it is no longer pending. */
  lemma FoundAfterMarker(attrs: seq<Attribute>, pending: set<string>)
    requires |attrs| > 0 && IsPendingMarker(attrs[0], pending)
    ensures var n := attrs[0].path[0];
            |set id | id in pending && Present(attrs, id)|
              == |set id | id in pending - {n} && Present(attrs[1..], id)| + 1
  {
    var n := attrs[0].path[0];
    var found := set id | id in pending && Present(attrs, id);
    var found' := set id | id in pending - {n} && Present(attrs[1..], id);
    assert IsIdent(attrs[0], n);
    PresentCons(attrs, pending - {n});
    assert found == found' + {n};
  }

  /** Any other head leaves the names found unchanged. */
  lemma FoundAfterOther(attrs: seq<Attribute>, pending: set<string>)
    requires |attrs| > 0 && !IsPendingMarker(attrs[0], pending)
    ensures (set id | id in pending && Present(attrs, id)) == (set id | id in pending && Present(attrs[1..], id))
  {
    PresentCons(attrs, pending);
    forall id | id in pending
      ensures Present(attrs, id) <==> Present(attrs[1..], id)
    {
      assert !IsIdent(attrs[0], id);
    }
  }

  /** For names the head is not, presence in the list is presence in its tail. */
  lemma PresentCons(attrs: seq<Attribute>, ids: set<string>)
    requires |attrs| > 0
    ensures forall id :: id in ids && !IsIdent(attrs[0], id) ==>
              (Present(attrs, id) <==> Present(attrs[1..], id))
  {
    forall id | id in ids && !IsIdent(attrs[0], id)
      ensures Present(attrs, id) <==> Present(attrs[1..], id)
    {
      if Present(attrs, id) {
        var i :| 0 <= i < |attrs| && IsIdent(attrs[i], id);
        assert attrs[1..][i - 1] == attrs[i];
      }
      if Present(attrs[1..], id) {
        var i :| 0 <= i < |attrs| - 1 && IsIdent(attrs[1..][i], id);
        assert attrs[i + 1] == attrs[1..][i];
      }
    }
  }

  /** The observable promise of `handle_common_attrs`: the non-marker
      attributes are kept in order, one attribute per marker present is
      removed, and the flags report `bench` and `ignore`. */
  lemma HandleCommonAttrsKeepsOthers(attrs: seq<Attribute>)
    ensures var (kept, info) := HandleCommonAttrs(attrs);
            && Others(kept) == Others(attrs)
            && |kept| == |attrs| - |set id | id in Markers && Present(attrs, id)|
            && (info.bench <==> Present(attrs, BenchMarker))
            && (info.ignore <==> Present(attrs, IgnoreMarker))
  {
    StripFirstKeepsOthers(attrs, Markers);
    StripFirstLength(attrs, Markers);
  }
}

=== FILE: data.dfy ===
/** The `#[data(...)]` macro: the case-source annotation, the choice of the
    case parameter, and the generated `describe` function that wraps every
    produced case for the harness. */
module DataTests {
  import opened Results
  import opened Rules
  import opened Signature

  /** `DataTestArgs`: a string literal (a YAML file to load the cases from)
      or any other expression producing the cases, kept as written. */
  datatype CaseSource = Literal(path: string) | Expression(tokens: seq<Token>)

  /** `DataTestArgs::parse` followed by the end-of-input check of
      `parse_macro_input!`. The grammar of Rust expressions is not modelled:
      any non-empty token list that does not start with a string literal is
      taken as one. */
  function ParseCaseSource(ts: seq<Token>): (r: Result<CaseSource, ParseError>)
    ensures r.Success? && r.value.Literal? <==> |ts| == 1 && ts[0].Str?
    ensures r.Success? && r.value.Literal? ==> ts == [Str(r.value.path)]
    ensures r.Success? && r.value.Expression? ==> r.value.tokens == ts
    ensures r.Failure? <==> |ts| == 0 || (ts[0].Str? && |ts| > 1)
  {
    if |ts| > 0 && ts[0].Str? then
      if |ts| == 1 then Success(Literal(ts[0].text)) else Failure(UnexpectedToken)
    else if |ts| == 0 then Failure(ExpectedExpression)
    else Success(Expression(ts))
  }

  /** The parameter the trampoline receives the case through: its type with
      one level of reference removed, and whether the original function is
      called with `&arg`. `ty` is `None` when no captured parameter is left. */
  datatype CaseParam = CaseParam(byRef: bool, ty: Option<Ty>)

  /** The declared parameter that carries the case: the first one, or the
      second one when the first is the bench parameter. */
  function CaseArgIndex(args: seq<FnArg>, bench: bool): nat {
    if bench && |args| > 0 then 1 else 0
  }

  /** The case-parameter selection of `data_internal`. */
  function SelectCaseParam(args: seq<FnArg>, bench: bool): (r: CaseParam)
    ensures var i := CaseArgIndex(args, bench);
            r.ty.None? <==> i >= |args| || !args[i].Captured?
    ensures r.byRef ==> r.ty.Some?
  {
    var rest := if bench && |args| > 0 then args[1..] else args;
    var ty: Option<Ty> := if |rest| > 0 && rest[0].Captured? then Some(rest[0].ty) else None;
    match ty
    case Some(Reference(_, elem)) => CaseParam(true, Some(elem))
    case _ => CaseParam(false, ty)
  }

  /** The type the original function is called with: `&` put back in front
      when the case is passed by reference. */
  function CallType(p: CaseParam): Option<Ty> {
    match p.ty
    case None => None
    case Some(t) => if p.byRef then Some(Reference(false, t)) else Some(t)
  }

  /** Only one level of reference is removed, and putting `&` back gives the
      declared type again. A `&mut` parameter loses its `mut` on the way: the
      call passes `&arg`. */
  lemma CaseParamRoundTrip(args: seq<FnArg>, bench: bool)
    requires CaseArgIndex(args, bench) < |args| && args[CaseArgIndex(args, bench)].Captured?
    ensures var declared := args[CaseArgIndex(args, bench)].ty;
            var p := SelectCaseParam(args, bench);
            && (p.byRef <==> declared.Reference?)
            && (p.byRef ==> p.ty == Some(declared.elem))
            && (!declared.Reference? || !declared.mutable ==> CallType(p) == Some(declared))
            && (declared.Reference? && declared.mutable ==> CallType(p) != Some(declared))
  {
    var i := CaseArgIndex(args, bench);
    var rest := if bench && |args| > 0 then args[1..] else args;
    assert rest[0] == args[i];
  }

  // ---------------------------------------------------------------------
  // The generated `describe` function.

  /** One case as the case source produces it. */
  datatype CaseInput<C> = CaseInput(caseValue: C, name: string, location: string)

  /** The run-time variant a case is wrapped in, by test kind. */
  datatype CaseRun<C> = TestCase(caseValue: C) | BenchCase(caseValue: C)

  /** One case as the harness receives it. */
  datatype CaseDesc<C> = CaseDesc(run: CaseRun<C>, name: string, location: string)

  /** The assertion `no test cases were found!`. */
  datatype DescribeError = NoTestCases

  /** The `DataTestCaseDesc` of one case: the case goes in the test kind's
      variant, and the name and location are copied. */
  function Wrap<C>(input: CaseInput<C>, bench: bool): (r: CaseDesc<C>)
    ensures Unwrap(r) == input
    ensures r.run.BenchCase? <==> bench
  {
    CaseDesc(if bench then BenchCase(input.caseValue) else TestCase(input.caseValue), input.name, input.location)
  }

  function WrapAll<C>(inputs: seq<CaseInput<C>>, bench: bool): (r: seq<CaseDesc<C>>)
    decreases |inputs|
    ensures |r| == |inputs|
    ensures forall i :: 0 <= i < |inputs| ==>
              && r[i].name == inputs[i].name
              && r[i].location == inputs[i].location
              && r[i].run.caseValue == inputs[i].caseValue
              && (r[i].run.BenchCase? <==> bench)
  {
    if |inputs| == 0 then []
    else [Wrap(inputs[0], bench)] + WrapAll(inputs[1..], bench)
  }

  /** `describe`: every case wrapped for the test kind, with name and location
      kept, and a failure when there are no cases at all. */
  function Describe<C>(inputs: seq<CaseInput<C>>, bench: bool): (r: Result<seq<CaseDesc<C>>, DescribeError>)
    ensures r.Failure? <==> |inputs| == 0
    ensures r.Success? ==> |r.value| == |inputs| > 0
    ensures r.Success? ==> forall i :: 0 <= i < |inputs| ==>
              r.value[i].name == inputs[i].name && r.value[i].location == inputs[i].location
  {
    var result := WrapAll(inputs, bench);
    if |result| == 0 then Failure(NoTestCases) else Success(result)
  }

  /** Taking the wrapping off again. */
  function Unwrap<C>(d: CaseDesc<C>): CaseInput<C> {
    CaseInput(d.run.caseValue, d.name, d.location)
  }

  function UnwrapAll<C>(ds: seq<CaseDesc<C>>): seq<CaseInput<C>>
    decreases |ds|
  {
    if |ds| == 0 then [] else [Unwrap(ds[0])] + UnwrapAll(ds[1..])
  }

  /** `describe` loses nothing: unwrapping its result gives back exactly the
      cases the source produced, in order, and every entry has the run kind of
      the test. */
  lemma {:induction false} DescribeRoundTrip<C>(inputs: seq<CaseInput<C>>, bench: bool)
    requires |inputs| > 0
    ensures Describe(inputs, bench).Success?
    ensures UnwrapAll(Describe(inputs, bench).value) == inputs
    ensures forall i :: 0 <= i < |inputs| ==> (Describe(inputs, bench).value[i].run.BenchCase? <==> bench)
  {
    UnwrapWrapAll(inputs, bench);
  }

  lemma {:induction false} UnwrapWrapAll<C>(inputs: seq<CaseInput<C>>, bench: bool)
    ensures UnwrapAll(WrapAll(inputs, bench)) == inputs
    decreases |inputs|
  {
    if |inputs| > 0 {
      UnwrapWrapAll(inputs[1..], bench);
      UnwrapWrapCons(inputs, bench);
    }
  }

  /** One step of the round trip: the head comes back in front of the tail's
      round trip. */
  lemma UnwrapWrapCons<C>(inputs: seq<CaseInput<C>>, bench: bool)
    requires |inputs| > 0
    ensures UnwrapAll(WrapAll(inputs, bench)) == [inputs[0]] + UnwrapAll(WrapAll(inputs[1..], bench))
  {
    var w := WrapAll(inputs, bench);
    assert w[0] == Wrap(inputs[0], bench);
    assert w[1..] == WrapAll(inputs[1..], bench);
  }
}

=== FILE: expand.dfy ===
/** The two attribute macros end to end, from the annotation tokens and the
    annotated function to what the expansion is made of: the descriptor, the
    trampoline's argument list and the function with its markers removed.
    The emitted Rust text itself is not modelled. */
module Expansion {
  import opened Results
  import opened Rules
  import opened Attributes
  import opened Signature
  import opened DataTests

  /** The annotated function: its name, outer attributes and parameters. */
  datatype FnItem = FnItem(ident: string, attrs: seq<Attribute>, args: seq<FnArg>)

  /** `FilesTestFn::TestFn` / `BenchFn` (and the same split for data tests). */
  datatype TestKind = TestFn | BenchFn

  /** The fields of the generated `FilesTestDesc`. */
  datatype FilesTestDesc = FilesTestDesc(
    name: string,
    ignore: bool,
    root: string,
    params: seq<string>,
    pattern: nat,
    ignoreFn: Option<Path>,
    kind: TestKind)

  /** The `#[files]` expansion: the descriptor, the trampoline's arguments
      and the function kept next to them. */
  datatype FilesExpansion = FilesExpansion(desc: FilesTestDesc, invoke: seq<InvokeArg>, func: FnItem)

  datatype MacroError = AnnotationError(parse: ParseError) | SignatureError(mismatch: MatchError)

  /** `concat!(module_path!(), "::", name)`. */
  function QualifiedName(modulePath: string, ident: string): (r: string)
    ensures |r| == |modulePath| + 2 + |ident|
    ensures r[..|modulePath|] == modulePath
    ensures r[|modulePath|..|modulePath| + 2] == "::"
    ensures r[|modulePath| + 2..] == ident
  {
    modulePath + "::" + ident
  }

  /** A Rust identifier has no `:` in it. */
  predicate NoColon(s: string) {
    forall i :: 0 <= i < |s| ==> s[i] != ':'
  }

  /** The registered name tells the module and the function apart: two tests
      share a name only when they are the same function of the same module. */
  lemma QualifiedNameUnique(m1: string, i1: string, m2: string, i2: string)
    requires NoColon(i1) && NoColon(i2)
    requires QualifiedName(m1, i1) == QualifiedName(m2, i2)
    ensures m1 == m2 && i1 == i2
    decreases if |i1| < |i2| then 0 else 1
  {
    var q := QualifiedName(m1, i1);
    if |i1| == |i2| {
      assert m1 == q[..|m1|] == m2;
      assert i1 == q[|m1| + 2..] == i2;
    } else if |i1| < |i2| {
      SeparatorInside(m1, i1, m2, i2);
      assert false;
    } else {
      QualifiedNameUnique(m2, i2, m1, i1);
    }
  }

  /** When the second identifier is the longer one, the first name's `::`
      falls inside it. */
  lemma SeparatorInside(m1: string, i1: string, m2: string, i2: string)
    requires QualifiedName(m1, i1) == QualifiedName(m2, i2) && |i1| < |i2|
    ensures 0 <= |m1| - |m2| - 1 < |i2| && i2[|m1| - |m2| - 1] == ':'
  {
    var q := QualifiedName(m1, i1);
    assert q[|m1|..|m1| + 2][1] == ':';
    assert q[|m2| + 2..][|m1| - |m2| - 1] == q[|m1| + 1];
  }

  function KindOf(bench: bool): TestKind {
    if bench then BenchFn else TestFn
  }

  /** `files_internal`: parse the annotation, take the markers off the
      function, match its parameters against the rules. */
  function ExpandFiles(annotation: seq<Token>, func: FnItem, modulePath: string): (r: Result<FilesExpansion, MacroError>)
    ensures ParseFilesArgs(annotation).Failure? <==> r.Failure? && r.error.AnnotationError?
    ensures ParseFilesArgs(annotation).Failure? ==> r == Failure(AnnotationError(ParseFilesArgs(annotation).error))
    ensures r.Success? ==>
              var bench := Present(func.attrs, BenchMarker);
              var rules := ParseFilesArgs(annotation).value.rules;
              var d := r.value.desc;
              && d.name == QualifiedName(modulePath, func.ident)
              && d.root == ParseFilesArgs(annotation).value.root
              && (d.ignore <==> Present(func.attrs, IgnoreMarker))
              && (d.kind == BenchFn <==> bench)
              && Realizes(func.args, bench, rules, Plan(d.params, r.value.invoke, d.pattern, d.ignoreFn))
              && r.value.func == func.(attrs := StripFirst(func.attrs, Markers))
    ensures r.Failure? && r.error.SignatureError? ==>
              var bench := Present(func.attrs, BenchMarker);
              MatchSignature(func.args, bench, ParseFilesArgs(annotation).value.rules) == Failure(r.error.mismatch)
  {
    match ParseFilesArgs(annotation)
    case Failure(e) => Failure(AnnotationError(e))
    case Success(parsed) =>
      var (attrs, info) := HandleCommonAttrs(func.attrs);
      match MatchSignature(func.args, info.bench, parsed.rules)
      case Failure(e) => Failure(SignatureError(e))
      case Success(plan) =>
        var desc := FilesTestDesc(QualifiedName(modulePath, func.ident), info.ignore, parsed.root,
                                  plan.params, plan.patternIdx, plan.ignoreFn, KindOf(info.bench));
        Success(FilesExpansion(desc, plan.invoke, func.(attrs := attrs)))
  }

  /** The descriptor follows the signature, not the annotation: writing the
      same rules (with distinct names) in another order, with or without a
      trailing comma, gives the identical expansion. */
  lemma ExpandFilesIgnoresRuleOrder(root: string, a: seq<Rule>, b: seq<Rule>, ta: bool, tb: bool, func: FnItem, modulePath: string)
    requires AllWellFormed(a)
    requires DistinctNames(a) && DistinctNames(b)
    requires multiset(a) == multiset(b)
    ensures ExpandFiles(FilesAnnotation(root, a, ta), func, modulePath) == ExpandFiles(FilesAnnotation(root, b, tb), func, modulePath)
  {
    forall i | 0 <= i < |b|
      ensures WellFormed(b[i])
    {
      assert b[i] in multiset(a);
    }
    ParseFilesAnnotation(root, a, ta);
    ParseFilesAnnotation(root, b, tb);
    RuleMapOrderIndependent(a, b);
    ExpandFilesDependsOnParse(FilesAnnotation(root, a, ta), FilesAnnotation(root, b, tb), func, modulePath);
  }

  /** Everything the expansion takes from the annotation is its parse. */
  lemma ExpandFilesDependsOnParse(x: seq<Token>, y: seq<Token>, func: FnItem, modulePath: string)
    requires ParseFilesArgs(x) == ParseFilesArgs(y)
    ensures ExpandFiles(x, func, modulePath) == ExpandFiles(y, func, modulePath)
  {
  }

  // ---------------------------------------------------------------------
  // The worked example: `"tests", { input in r"(.*)\.in", output = "${1}.out" }`
  // on `fn run(input: &str, output: &str)`.

  const InputRule := Rule("input", Pattern, "(.*)\\.in", None)
  const OutputRule := Rule("output", Template, "${1}.out", None)
  const RunFn := FnItem("run", [],
                        [Captured(IdentPat("input"), Reference(false, Named("str"))),
                         Captured(IdentPat("output"), Reference(false, Named("str")))])

  const ExampleRules := map["input" := InputRule, "output" := OutputRule]
  const StrRef := Reference(false, Named("str"))

  lemma ExampleMatch()
    ensures MatchSignature(RunFn.args, false, ExampleRules)
         == Success(Plan(["(.*)\\.in", "${1}.out"], [DeriveFromPath(StrRef, 0), DeriveFromPath(StrRef, 1)], 0, None))
  {
    var args := RunFn.args;
    var st0 := Scan([], [], None, None);
    var st1 := Scan(["(.*)\\.in"], [DeriveFromPath(StrRef, 0)], Some(0), None);
    var st2 := Scan(["(.*)\\.in", "${1}.out"], [DeriveFromPath(StrRef, 0), DeriveFromPath(StrRef, 1)], Some(0), None);
    assert args[0] == Captured(IdentPat("input"), StrRef) && args[1] == Captured(IdentPat("output"), StrRef);
    assert "input" in ExampleRules && ExampleRules["input"] == InputRule;
    assert "output" in ExampleRules && ExampleRules["output"] == OutputRule;
    assert st0.params + [InputRule.value] == st1.params;
    assert st0.invoke + [DeriveFromPath(StrRef, 0)] == st1.invoke;
    assert st1.params + [OutputRule.value] == st2.params;
    assert st1.invoke + [DeriveFromPath(StrRef, 1)] == st2.invoke;
    assert ScanPrefix(args, 0, false, ExampleRules) == Success(st0);
    assert ScanPrefix(args, 1, false, ExampleRules) == Success(st1);
    assert ScanPrefix(args, 2, false, ExampleRules) == Success(st2);
  }

  lemma ExampleRuleMap(first: Rule, second: Rule)
    requires (first, second) == (InputRule, OutputRule) || (first, second) == (OutputRule, InputRule)
    ensures RuleMap([first, second]) == ExampleRules
  {
    var rs := [first, second];
    assert rs[..1] == [first] && [first][..0] == [];
    assert RuleMap([first]) == map[first.name := first];
  }

  lemma ExampleParse(first: Rule, second: Rule, trailing: bool)
    requires (first, second) == (InputRule, OutputRule) || (first, second) == (OutputRule, InputRule)
    ensures ParseFilesArgs(FilesAnnotation("tests", [first, second], trailing)) == Success(FilesArgs("tests", ExampleRules))
  {
    ParseFilesAnnotation("tests", [first, second], trailing);
    ExampleRuleMap(first, second);
  }

  /** Whatever annotation parses to the example's root and rules gives the
      example's descriptor. */
  lemma ExampleDescriptor(annotation: seq<Token>)
    requires ParseFilesArgs(annotation) == Success(FilesArgs("tests", ExampleRules))
    ensures var r := ExpandFiles(annotation, RunFn, "crate");
            && r.Success?
            && r.value.desc == FilesTestDesc(QualifiedName("crate", "run"), false, "tests", ["(.*)\\.in", "${1}.out"], 0, None, TestFn)
  {
    ExampleMatch();
    assert HandleCommonAttrs(RunFn.attrs) == ([], FuncInfo(false, false));
    ExpandFilesSucceeds(annotation, RunFn, "crate", FilesArgs("tests", ExampleRules),
                        Plan(["(.*)\\.in", "${1}.out"], [DeriveFromPath(StrRef, 0), DeriveFromPath(StrRef, 1)], 0, None));
  }

  /** The descriptor for the example has the pattern first, because `input`
      is the first parameter, whichever order the rules are written in. */
  lemma ExampleInputOutput(first: Rule, second: Rule, trailing: bool)
    requires (first, second) == (InputRule, OutputRule) || (first, second) == (OutputRule, InputRule)
    ensures var r := ExpandFiles(FilesAnnotation("tests", [first, second], trailing), RunFn, "crate");
            && r.Success?
            && r.value.desc == FilesTestDesc(QualifiedName("crate", "run"), false, "tests", ["(.*)\\.in", "${1}.out"], 0, None, TestFn)
  {
    ExampleParse(first, second, trailing);
    ExampleDescriptor(FilesAnnotation("tests", [first, second], trailing));
  }

  lemma ExpandFilesSucceeds(annotation: seq<Token>, func: FnItem, modulePath: string, parsed: FilesArgs, plan: Plan)
    requires ParseFilesArgs(annotation) == Success(parsed)
    requires MatchSignature(func.args, HandleCommonAttrs(func.attrs).1.bench, parsed.rules) == Success(plan)
    ensures var info := HandleCommonAttrs(func.attrs).1;
            ExpandFiles(annotation, func, modulePath) == Success(FilesExpansion(
              FilesTestDesc(QualifiedName(modulePath, func.ident), info.ignore, parsed.root,
                            plan.params, plan.patternIdx, plan.ignoreFn, KindOf(info.bench)),
              plan.invoke,
              func.(attrs := HandleCommonAttrs(func.attrs).0)))
  {
  }

  // ---------------------------------------------------------------------
  // `#[data]`.

  /** The fields of the generated `DataTestDesc`, with what its `describe`
      and trampoline are built from. */
  datatype DataTestDesc = DataTestDesc(name: string, ignore: bool, source: CaseSource, param: CaseParam, kind: TestKind)

  datatype DataExpansion = DataExpansion(desc: DataTestDesc, func: FnItem)

  /** `data_internal`: parse the case source, take the markers off the
      function and pick the case parameter. */
  function ExpandData(annotation: seq<Token>, func: FnItem, modulePath: string): (r: Result<DataExpansion, ParseError>)
    ensures r.Failure? <==> ParseCaseSource(annotation).Failure?
    ensures ParseCaseSource(annotation).Failure? ==> r == Failure(ParseCaseSource(annotation).error)
    ensures r.Success? ==>
              var bench := Present(func.attrs, BenchMarker);
              var d := r.value.desc;
              && d.name == QualifiedName(modulePath, func.ident)
              && d.source == ParseCaseSource(annotation).value
              && (d.ignore <==> Present(func.attrs, IgnoreMarker))
              && (d.kind == BenchFn <==> bench)
              && d.param == SelectCaseParam(func.args, bench)
              && r.value.func == func.(attrs := StripFirst(func.attrs, Markers))
  {
    var source :- ParseCaseSource(annotation);
    var (attrs, info) := HandleCommonAttrs(func.attrs);
    var desc := DataTestDesc(QualifiedName(modulePath, func.ident), info.ignore, source,
                             SelectCaseParam(func.args, info.bench), KindOf(info.bench));
    Success(DataExpansion(desc, func.(attrs := attrs)))
  }

  /** A `#[bench]` data test skips the bencher when it picks the case
      parameter, and its `describe` wraps every case as a bench case. */
  lemma BenchDataTestCases<C>(annotation: seq<Token>, func: FnItem, modulePath: string, inputs: seq<CaseInput<C>>)
    requires ExpandData(annotation, func, modulePath).Success?
    requires Present(func.attrs, BenchMarker)
    requires |inputs| > 0
    requires |func.args| >= 2 && func.args[1].Captured?
    ensures var d := ExpandData(annotation, func, modulePath).value.desc;
            var declared := func.args[1].ty;
            && d.param.ty.Some?
            && (d.param.byRef ==> d.param.ty.value == declared.elem)
            && (!d.param.byRef ==> d.param.ty.value == declared)
    ensures var d := ExpandData(annotation, func, modulePath).value.desc;
            && Describe(inputs, d.kind == BenchFn).Success?
            && var cases := Describe(inputs, d.kind == BenchFn).value;
               forall i :: 0 <= i < |cases| ==> cases[i].run.BenchCase?
  {
    DescribeRoundTrip(inputs, true);
  }
}

=== FILE: results.dfy ===
/** Failure-compatible wrappers shared by every part of the model. A proc-macro
    error (a `syn::Error` turned into `compile_error!`) is a `Failure`; an
    expansion that goes ahead is a `Success`. */
module Results {

  /** An optional value, the model of Rust's `Option<T>`. */
  datatype Option<+T> = None | Some(value: T)

  /** A value or an error, usable with `:-`. */
  datatype Result<+T, +E> = Success(value: T) | Failure(error: E) {

    predicate IsFailure() {
      Failure?
    }

    function PropagateFailure<U>(): Result<U, E>
      requires Failure?
    {
      Failure(error)
    }

    function Extract(): T
      requires Success?
    {
      value
    }
  }
}

=== FILE: rules.dfy ===
/** The `#[files("<root>", { <rule>, ... })]` annotation: the token model, the
    per-rule grammar of `TemplateArg::parse`, the comma-terminated rule list and
    the name-keyed rule map built by `FilesTestArgs::parse`. */
module Rules {
  import opened Results

  /** A `syn::Path`, as its segments (`a::b::c` is `["a", "b", "c"]`). */
  type Path = seq<string>

  /** The tokens the annotation grammar distinguishes. `Brace` is a `{ ... }`
      group with its content; `Other` is any token the grammar never accepts. */
  datatype Token =
    | Ident(name: string)
    | In
    | Eq
    | Str(text: string)
    | If
    | Bang
    | PathTok(segments: Path)
    | Comma
    | Brace(inner: seq<Token>)
    | Other(text: string)

  /** The diagnostics `syn` reports while parsing, without their spans. */
  datatype ParseError =
    | ExpectedIdent
    | ExpectedEq
    | ExpectedString
    | ExpectedBang
    | ExpectedPath
    | ExpectedComma
    | ExpectedBraces
    | ExpectedExpression
    | UnexpectedToken

  /** `in` binds a pattern (a regular expression run against file names);
      `=` binds a template (derives a related file from the pattern match). */
  datatype RuleKind = Pattern | Template

  /** One `TemplateArg`: the argument it binds, its kind, its string and the
      optional `if !<path>` ignore predicate. */
  datatype Rule = Rule(name: string, kind: RuleKind, value: string, ignoreFn: Option<Path>)

  /** The parsed annotation: the root directory and the rules keyed by name. */
  datatype FilesArgs = FilesArgs(root: string, rules: map<string, Rule>)

  /** The grammar only attaches an ignore predicate to a pattern rule. */
  predicate WellFormed(r: Rule) {
    r.kind == Template ==> r.ignoreFn.None?
  }

  predicate AllWellFormed(rs: seq<Rule>) {
    forall i :: 0 <= i < |rs| ==> WellFormed(rs[i])
  }

  /** `syn::Path` accepts a multi-segment path and a lone identifier. */
  predicate IsPathToken(t: Token) {
    t.PathTok? || t.Ident?
  }

  function PathOf(t: Token): Path
    requires IsPathToken(t)
  {
    if t.PathTok? then t.segments else [t.name]
  }

  /** `TemplateArg::parse`: `<ident> (in | =) "<str>" [if !<path>]`, returning
      the rule and the tokens it did not consume. The `if` suffix is only
      looked for after `in`. */
  function ParseRule(ts: seq<Token>): (r: Result<(Rule, seq<Token>), ParseError>)
    ensures r.Success? ==>
              var (rule, rest) := r.value;
              && |rest| + 3 <= |ts|
              && rest == ts[|ts| - |rest|..]
              && ts[0] == Ident(rule.name)
              && ts[2] == Str(rule.value)
              && (rule.kind == Pattern <==> ts[1] == In)
              && (rule.kind == Template <==> ts[1] == Eq)
              && WellFormed(rule)
              && (rule.ignoreFn.Some? <==> |rest| + 6 == |ts| && ts[3] == If)
              && (rule.ignoreFn.Some? ==> ts[4] == Bang && IsPathToken(ts[5]) && rule.ignoreFn.value == PathOf(ts[5]))
    ensures (|ts| == 0 || !ts[0].Ident?) <==> r == Failure(ExpectedIdent)
    ensures r.Success? <==>
              && |ts| >= 3 && ts[0].Ident? && (ts[1].In? || ts[1].Eq?) && ts[2].Str?
              && (ts[1].In? && |ts| > 3 && ts[3].If? ==> |ts| >= 6 && ts[4].Bang? && IsPathToken(ts[5]))
    ensures r == Failure(ExpectedEq) <==> |ts| > 0 && ts[0].Ident? && (|ts| == 1 || !(ts[1].In? || ts[1].Eq?))
    ensures r == Failure(ExpectedString) <==>
              |ts| > 1 && ts[0].Ident? && (ts[1].In? || ts[1].Eq?) && (|ts| == 2 || !ts[2].Str?)
    ensures r == Failure(ExpectedBang) <==>
              |ts| > 3 && ts[0].Ident? && ts[1].In? && ts[2].Str? && ts[3].If? && (|ts| == 4 || !ts[4].Bang?)
    ensures r == Failure(ExpectedPath) <==>
              |ts| > 4 && ts[0].Ident? && ts[1].In? && ts[2].Str? && ts[3].If? && ts[4].Bang?
              && (|ts| == 5 || !IsPathToken(ts[5]))
    ensures r.Success? && r.value.0.ignoreFn.None? ==> r.value.1 == ts[3..]
    ensures r.Success? && r.value.0.ignoreFn.Some? ==> r.value.1 == ts[6..]
    ensures r.Success? && r.value.0.kind == Pattern && r.value.0.ignoreFn.None? ==>
              r.value.1 == [] || !r.value.1[0].If?
  {
    if |ts| == 0 || !ts[0].Ident? then Failure(ExpectedIdent)
    else if |ts| == 1 || !(ts[1].In? || ts[1].Eq?) then Failure(ExpectedEq)
    else if |ts| == 2 || !ts[2].Str? then Failure(ExpectedString)
    else
      var kind := if ts[1].In? then Pattern else Template;
      var rest := ts[3..];
      if kind == Pattern && |rest| > 0 && rest[0].If? then
        if |rest| == 1 || !rest[1].Bang? then Failure(ExpectedBang)
        else if |rest| == 2 || !IsPathToken(rest[2]) then Failure(ExpectedPath)
        else Success((Rule(ts[0].name, kind, ts[2].text, Some(PathOf(rest[2]))), rest[3..]))
      else Success((Rule(ts[0].name, kind, ts[2].text, None), rest))
  }

  /** `parse_terminated`: rules separated by commas, an optional trailing
      comma, up to the end of the braced content. */
  function ParseRules(ts: seq<Token>): (r: Result<seq<Rule>, ParseError>)
    decreases |ts|
    ensures r.Success? ==> AllWellFormed(r.value)
    ensures r.Success? ==> |r.value| <= |ts|
    ensures ts == [] ==> r == Success([])
  {
    if |ts| == 0 then Success([])
    else
      var (rule, rest) :- ParseRule(ts);
      if |rest| == 0 then Success([rule])
      else if !rest[0].Comma? then Failure(ExpectedComma)
      else
        var more :- ParseRules(rest[1..]);
        Success([rule] + more)
  }

  /** The names the map binds to pattern rules. */
  function PatternNames(rules: map<string, Rule>): set<string> {
    set k | k in rules && rules[k].kind == Pattern
  }

  /** `rs[i]` is the last rule of the list that binds `k`. */
  predicate LastNamed(rs: seq<Rule>, i: int, k: string) {
    0 <= i < |rs| && rs[i].name == k && forall j :: i < j < |rs| ==> rs[j].name != k
  }

  /** The name-keyed map the parsed rules are collected into; like a
      `HashMap` filled in order, a later rule replaces an earlier one with the
      same name. */
  function RuleMap(rs: seq<Rule>): (m: map<string, Rule>)
    ensures forall k :: k in m <==> exists i :: 0 <= i < |rs| && rs[i].name == k
    ensures forall k :: k in m ==> m[k] in rs && m[k].name == k
    ensures |rs| > 0 ==> m[rs[|rs| - 1].name] == rs[|rs| - 1]
  {
    if |rs| == 0 then map[]
    else
      var init, last := rs[..|rs| - 1], rs[|rs| - 1];
      assert rs == init + [last];
      RuleMap(init)[last.name := last]
  }

  /** Whatever the repetitions, every name maps to the last rule of the list
      that binds it. */
  lemma {:induction false} RuleMapLaterWins(rs: seq<Rule>, k: string)
    requires k in RuleMap(rs)
    ensures exists i :: LastNamed(rs, i, k) && RuleMap(rs)[k] == rs[i]
    decreases |rs|
  {
    var init, last := rs[..|rs| - 1], rs[|rs| - 1];
    if k == last.name {
      assert LastNamed(rs, |rs| - 1, k);
    } else {
      RuleMapUnshadowed(rs, k);
      RuleMapLaterWins(init, k);
      var i :| LastNamed(init, i, k) && RuleMap(init)[k] == init[i];
      LastNamedExtend(rs, i, k);
    }
  }

  /** A name the last rule does not bind maps as it did without that rule. */
  lemma RuleMapUnshadowed(rs: seq<Rule>, k: string)
    requires |rs| > 0 && k != rs[|rs| - 1].name && k in RuleMap(rs)
    ensures k in RuleMap(rs[..|rs| - 1]) && RuleMap(rs)[k] == RuleMap(rs[..|rs| - 1])[k]
  {
  }

  lemma LastNamedExtend(rs: seq<Rule>, i: int, k: string)
    requires |rs| > 0 && k != rs[|rs| - 1].name && LastNamed(rs[..|rs| - 1], i, k)
    ensures LastNamed(rs, i, k) && rs[..|rs| - 1][i] == rs[i]
  {
  }

  /** `FilesTestArgs::parse` followed by the end-of-input check of
      `parse_macro_input!`: `"<root>" , { <rules> }` and nothing after. */
  function ParseFilesArgs(ts: seq<Token>): (r: Result<FilesArgs, ParseError>)
    ensures r.Success? ==> |ts| == 3 && ts[0] == Str(r.value.root) && ts[1] == Comma && ts[2].Brace?
    ensures r.Success? ==>
              ParseRules(ts[2].inner).Success? && r.value.rules == RuleMap(ParseRules(ts[2].inner).value)
  {
    if |ts| == 0 || !ts[0].Str? then Failure(ExpectedString)
    else if |ts| == 1 || !ts[1].Comma? then Failure(ExpectedComma)
    else if |ts| == 2 || !ts[2].Brace? then Failure(ExpectedBraces)
    else
      var rules :- ParseRules(ts[2].inner);
      if |ts| > 3 then Failure(UnexpectedToken)
      else Success(FilesArgs(ts[0].text, RuleMap(rules)))
  }

  // ---------------------------------------------------------------------
  // Writing rules back as tokens, the inverse the parser is checked against.

  function RenderRule(r: Rule): seq<Token> {
    [Ident(r.name), if r.kind == Pattern then In else Eq, Str(r.value)]
    + (if r.ignoreFn.Some? then [If, Bang, PathTok(r.ignoreFn.value)] else [])
  }

  /** Rules joined by commas, with a trailing comma when `trailing` is set. */
  function RenderRules(rs: seq<Rule>, trailing: bool): seq<Token>
    decreases |rs|
  {
    if |rs| == 0 then []
    else if |rs| == 1 then RenderRule(rs[0]) + (if trailing then [Comma] else [])
    else RenderRule(rs[0]) + [Comma] + RenderRules(rs[1..], trailing)
  }

  function FilesAnnotation(root: string, rs: seq<Rule>, trailing: bool): seq<Token> {
    [Str(root), Comma, Brace(RenderRules(rs, trailing))]
  }

  /** The ignore predicate may be a lone identifier: `syn::Path` takes it as
      a path of one segment. */
  lemma ParseIdentGuard(name: string, value: string, pred: string, rest: seq<Token>)
    ensures ParseRule([Ident(name), In, Str(value), If, Bang, Ident(pred)] + rest)
         == Success((Rule(name, Pattern, value, Some([pred])), rest))
  {
    var ts := [Ident(name), In, Str(value), If, Bang, Ident(pred)] + rest;
    assert ts[3..][3..] == rest;
  }

  /** Parsing a written rule gives the rule back and stops in front of
      whatever follows it, unless an unguarded pattern is followed by `if`,
      which the parser takes for the start of a guard. */
  lemma ParseRenderRule(r: Rule, rest: seq<Token>)
    requires WellFormed(r)
    requires r.kind == Pattern && r.ignoreFn.None? ==> rest == [] || !rest[0].If?
    ensures ParseRule(RenderRule(r) + rest) == Success((r, rest))
  {
    var ts := RenderRule(r) + rest;
    assert ts[0] == Ident(r.name) && ts[2] == Str(r.value);
    if r.ignoreFn.Some? {
      assert ts[3..] == [If, Bang, PathTok(r.ignoreFn.value)] + rest;
    } else {
      assert ts[3..] == rest;
    }
  }

  /** One rule in front of a comma and a list that parses: the list parser
      puts the rule in front of that list. */
  lemma ParseRulesCons(r: Rule, more: seq<Token>)
    requires WellFormed(r)
    requires ParseRules(more).Success?
    ensures ParseRules(RenderRule(r) + [Comma] + more) == Success([r] + ParseRules(more).value)
  {
    var tail := [Comma] + more;
    assert RenderRule(r) + [Comma] + more == RenderRule(r) + tail;
    ParseRenderRule(r, tail);
    assert tail[1..] == more;
  }

  /** Round trip of the rule list: every well-formed list, with or without a
      trailing comma, parses back to itself. */
  lemma {:induction false} ParseRenderRules(rs: seq<Rule>, trailing: bool)
    requires AllWellFormed(rs)
    ensures ParseRules(RenderRules(rs, trailing)) == Success(rs)
    decreases |rs|
  {
    if |rs| == 1 {
      assert WellFormed(rs[0]);
      assert ParseRules([]) == Success([]);
      if trailing {
        ParseRulesCons(rs[0], []);
        assert [rs[0]] + ParseRules([]).value == [rs[0]];
        assert RenderRule(rs[0]) + [Comma] + [] == RenderRules(rs, trailing);
        assert ParseRules(RenderRules(rs, trailing)) == Success([rs[0]]);
      } else {
        ParseRenderRule(rs[0], []);
        assert RenderRule(rs[0]) + [] == RenderRules(rs, trailing);
        assert ParseRule(RenderRules(rs, trailing)) == Success((rs[0], []));
        assert ParseRules(RenderRules(rs, trailing)) == Success([rs[0]]);
      }
      assert [rs[0]] == rs;
    } else if |rs| > 1 {
      ParseRenderRules(rs[1..], trailing);
      ParseRulesCons(rs[0], RenderRules(rs[1..], trailing));
      assert [rs[0]] + rs[1..] == rs;
    }
  }

  // ---------------------------------------------------------------------
  // The converse: every token list the parser accepts is a printed one.

  /** No `!` is followed by a lone identifier: every guard is written as a
      path token. (`Rules.ParseIdentGuard` covers the lone-identifier form.) */
  predicate PathGuards(ts: seq<Token>) {
    forall i :: 0 <= i < |ts| - 1 ==> ts[i] == Bang ==> !ts[i + 1].Ident?
  }

  /** Whether the content ends in a comma. */
  function EndsInComma(ts: seq<Token>): bool {
    |ts| > 0 && ts[|ts| - 1] == Comma
  }

  /** A rule the parser accepts is exactly the printed rule in front of what
      is left over. */
  lemma ParsedRuleIsRendered(ts: seq<Token>)
    requires ParseRule(ts).Success? && PathGuards(ts)
    ensures ts == RenderRule(ParseRule(ts).value.0) + ParseRule(ts).value.1
  {
    var (rule, rest) := ParseRule(ts).value;
    if rule.ignoreFn.Some? {
      assert ts[4] == Bang;
      assert ts[5] == PathTok(rule.ignoreFn.value);
      assert ts == ts[..6] + ts[6..];
    } else {
      assert ts == ts[..3] + ts[3..];
    }
  }

  /** What is left after a rule's comma keeps its guards as path tokens. */
  lemma PathGuardsSuffix(ts: seq<Token>, k: nat)
    requires PathGuards(ts) && k <= |ts|
    ensures PathGuards(ts[k..])
  {
    forall i | 0 <= i < |ts[k..]| - 1
      ensures ts[k..][i] == Bang ==> !ts[k..][i + 1].Ident?
    {
      assert ts[k..][i] == ts[k + i] && ts[k..][i + 1] == ts[k + i + 1];
    }
  }

  /** Converse round trip of the rule list: whatever the list parser accepts
      is the printing of the rules it returns, with a trailing comma exactly
      when the content ends in one. Malformed content (a missing comma, a
      stray token, a guard after a template) is rejected. */
  lemma {:induction false} ParsedRulesAreRendered(ts: seq<Token>)
    requires ParseRules(ts).Success? && PathGuards(ts)
    ensures ts == RenderRules(ParseRules(ts).value, EndsInComma(ts))
    decreases |ts|
  {
    if |ts| > 0 {
      var (rule, rest) := ParseRule(ts).value;
      ParsedRuleIsRendered(ts);
      if |rest| == 0 {
        assert ts == RenderRule(rule);
        assert ts[|ts| - 1] != Comma;
      } else {
        var tail := ts[|RenderRule(rule)| + 1..];
        PathGuardsSuffix(ts, |RenderRule(rule)| + 1);
        ParsedRulesTail(ts, tail);
        ParsedRulesAreRendered(tail);
        ParsedRulesCons(ts, rule, tail);
      }
    }
  }

  /** After a rule and its comma, the list parser goes on with the tokens
      behind the comma. */
  lemma ParsedRulesTail(ts: seq<Token>, tail: seq<Token>)
    requires ParseRules(ts).Success? && |ts| > 0
    requires ts == RenderRule(ParseRule(ts).value.0) + ParseRule(ts).value.1
    requires |ParseRule(ts).value.1| > 0
    requires tail == ts[|RenderRule(ParseRule(ts).value.0)| + 1..]
    ensures ParseRule(ts).value.1 == [Comma] + tail
    ensures ParseRules(tail).Success? && |tail| < |ts|
    ensures ParseRules(ts).value == [ParseRule(ts).value.0] + ParseRules(tail).value
  {
    var (rule, rest) := ParseRule(ts).value;
    assert rest == ts[|RenderRule(rule)|..];
    assert rest[1..] == tail;
  }

  /** Putting a printed rule and a comma in front of a printed list. */
  lemma ParsedRulesCons(ts: seq<Token>, rule: Rule, tail: seq<Token>)
    requires ts == RenderRule(rule) + [Comma] + tail
    requires ParseRules(tail).Success?
    requires tail == RenderRules(ParseRules(tail).value, EndsInComma(tail))
    ensures ts == RenderRules([rule] + ParseRules(tail).value, EndsInComma(ts))
  {
    var more := ParseRules(tail).value;
    var printed := RenderRule(rule);
    assert printed[|printed| - 1] != Comma;
    if |tail| == 0 {
      assert more == [];
      assert EndsInComma(ts);
    } else {
      assert ParseRules(tail) != Success([]);
      assert EndsInComma(ts) == EndsInComma(tail);
      assert ([rule] + more)[1..] == more;
    }
  }

  /** Converse round trip of the whole annotation: an accepted annotation is
      the printing of its root and of the rule list its map is built from. */
  lemma ParsedAnnotationIsRendered(ts: seq<Token>)
    requires ParseFilesArgs(ts).Success? && PathGuards(ts[2].inner)
    ensures var inner := ts[2].inner;
            && ts == FilesAnnotation(ParseFilesArgs(ts).value.root, ParseRules(inner).value, EndsInComma(inner))
            && ParseFilesArgs(ts).value.rules == RuleMap(ParseRules(inner).value)
  {
    ParsedRulesAreRendered(ts[2].inner);
  }

  /** Round trip of the whole annotation: the root and the map of the written
      rules come back. */
  lemma ParseFilesAnnotation(root: string, rs: seq<Rule>, trailing: bool)
    requires AllWellFormed(rs)
    ensures ParseFilesArgs(FilesAnnotation(root, rs, trailing)) == Success(FilesArgs(root, RuleMap(rs)))
  {
    ParseRenderRules(rs, trailing);
  }

  /** The `if !<path>` suffix is part of the grammar only after `in`: after a
      template rule the parser wants a comma and rejects the `if`. */
  lemma TemplateGuardRejected(name: string, value: string, p: Token, rest: seq<Token>)
    ensures ParseRules([Ident(name), Eq, Str(value), If, Bang, p] + rest) == Failure(ExpectedComma)
  {
    var ts := [Ident(name), Eq, Str(value), If, Bang, p] + rest;
    assert ts[3..] == [If, Bang, p] + rest;
  }

  // ---------------------------------------------------------------------
  // The rule map does not depend on the order the rules are written in.

  predicate DistinctNames(rs: seq<Rule>) {
    forall i, j :: 0 <= i < j < |rs| ==> rs[i].name != rs[j].name
  }

  /** With distinct names, each key maps to the one rule carrying it. */
  lemma RuleMapSelectsNamedRule(rs: seq<Rule>, r: Rule)
    requires DistinctNames(rs)
    requires r in rs
    ensures r.name in RuleMap(rs) && RuleMap(rs)[r.name] == r
  {
    var m := RuleMap(rs);
    var i :| 0 <= i < |rs| && rs[i] == r;
    var j :| 0 <= j < |rs| && rs[j] == m[r.name];
    assert rs[i].name == rs[j].name;
    assert i == j;
  }

  /** Reordering rules with distinct names leaves the rule map unchanged. */
  lemma RuleMapOrderIndependent(a: seq<Rule>, b: seq<Rule>)
    requires DistinctNames(a) && DistinctNames(b)
    requires multiset(a) == multiset(b)
    ensures RuleMap(a) == RuleMap(b)
  {
    var ma, mb := RuleMap(a), RuleMap(b);
    forall k | k in ma
      ensures k in mb && mb[k] == ma[k]
    {
      var r := ma[k];
      assert r in multiset(a);
      assert r in b;
      RuleMapSelectsNamedRule(b, r);
    }
    forall k | k in mb
      ensures k in ma
    {
      var r := mb[k];
      assert r in multiset(b);
      assert r in a;
      RuleMapSelectsNamedRule(a, r);
    }
  }

  /** With a repeated name the later rule wins, so the order of the rules does
      matter then. */
  lemma DuplicateNameLaterWins(r1: Rule, r2: Rule)
    requires r1.name == r2.name && r1 != r2
    ensures RuleMap([r1, r2]) != RuleMap([r2, r1])
    ensures RuleMap([r1, r2])[r1.name] == r2
  {
    assert [r1, r2][..1] == [r1];
    assert [r2, r1][..1] == [r2];
  }
}

=== FILE: signature.dfy ===
/** The signature matcher of `files_internal`: the loop that pairs every
    declared parameter with its rule, the bench shift, the pattern checks, and
    the argument list the trampoline builds from `paths_arg`. */
module Signature {
  import opened Results
  import opened Rules

  /** A declared parameter type; only references matter to the model. */
  datatype Ty = Reference(mutable: bool, elem: Ty) | Named(name: string)

  /** The binding side of a parameter: a plain identifier or anything else
      (tuple or struct destructuring, `_`, ...). */
  datatype Pat = IdentPat(name: string) | OtherPat

  /** `FnArg`: a captured `pat: ty` parameter, or any other form (a `self`
      receiver, an ignored or inferred argument). */
  datatype FnArg = Captured(pat: Pat, ty: Ty) | Receiver

  /** One argument of the trampoline's call to the test function: the
      parameter passed through by name (the bench parameter), or the value
      derived from `paths_arg[index]` for the declared type. */
  datatype InvokeArg = PassThrough(name: string) | DeriveFromPath(ty: Ty, index: nat)

  datatype MatchError =
    | UnexpectedArgument(position: nat)
    | MappingNotDefined(name: string)
    | TwoPatterns(name: string)
    | NoPattern

  /** The state the loop of `files_internal` carries: `params`,
      `invoke_args`, `pattern_idx` and `ignore_fn`. */
  datatype Scan = Scan(params: seq<string>, invoke: seq<InvokeArg>, patternIdx: Option<nat>, ignoreFn: Option<Path>)

  /** The argument plan of a matched signature. */
  datatype Plan = Plan(params: seq<string>, invoke: seq<InvokeArg>, patternIdx: nat, ignoreFn: Option<Path>)

  // ---------------------------------------------------------------------
  // The matcher as `files_internal` runs it.

  /** One turn of the loop over the declared parameters, at position `j`. */
  function Step(args: seq<FnArg>, j: nat, bench: bool, rules: map<string, Rule>, st: Scan): (r: Result<Scan, MatchError>)
    requires j < |args|
    ensures r.Failure? <==>
              || !Simple(args[j])
              || (!IsBenchSlot(bench, j)
                  && (NameOf(args[j]) !in rules || (PatternBound(args, bench, rules, j) && st.patternIdx.Some?)))
    ensures r.Success? ==>
              && |r.value.invoke| == |st.invoke| + 1
              && r.value.invoke[..|st.invoke|] == st.invoke
              && |st.params| <= |r.value.params| <= |st.params| + 1
              && r.value.params[..|st.params|] == st.params
    ensures r.Success? && st.patternIdx.Some? ==> r.value.patternIdx == st.patternIdx && r.value.ignoreFn == st.ignoreFn
    ensures r.Success? && st.patternIdx.None? ==> (r.value.patternIdx.Some? <==> PatternBound(args, bench, rules, j))
  {
    match args[j]
    case Captured(IdentPat(name), ty) =>
      if bench && j == 0 then
        // `files_internal` leaves the type of the bench parameter unchecked.
        Success(st.(invoke := st.invoke + [PassThrough(name)]))
      else
        var idx := if bench then j - 1 else j;
        if name !in rules then Failure(MappingNotDefined(name))
        else
          var rule := rules[name];
          if rule.kind == Pattern && st.patternIdx.Some? then Failure(TwoPatterns(name))
          else
            var st' := if rule.kind == Pattern then st.(patternIdx := Some(idx), ignoreFn := rule.ignoreFn) else st;
            Success(st'.(params := st.params + [rule.value], invoke := st.invoke + [DeriveFromPath(ty, idx)]))
    case _ => Failure(UnexpectedArgument(j))
  }

  /** The loop over the first `n` parameters; the first error ends it. */
  function ScanPrefix(args: seq<FnArg>, n: nat, bench: bool, rules: map<string, Rule>): (r: Result<Scan, MatchError>)
    requires n <= |args|
    decreases n
    ensures r.Success? <==> forall j :: 0 <= j < n ==> Fault(args, bench, rules, j).None?
    ensures r.Failure? ==> FirstFault(args, bench, rules, n, r.error)
    ensures r.Success? ==> ScanInvariant(args, bench, rules, n, r.value)
  {
    if n == 0 then Success(Scan([], [], None, None))
    else
      var st :- ScanPrefix(args, n - 1, bench, rules);
      var r := Step(args, n - 1, bench, rules, st);
      StepSpec(args, n - 1, bench, rules, st);
      r
  }

  /** The loop followed by the "exactly one pattern" check. */
  function MatchSignature(args: seq<FnArg>, bench: bool, rules: map<string, Rule>): (r: Result<Plan, MatchError>)
    ensures r.Success? <==> NoFaults(args, bench, rules) && exists p :: 0 <= p < |args| && PatternBound(args, bench, rules, p)
    ensures r == Failure(NoPattern) <==>
              NoFaults(args, bench, rules) && forall p :: 0 <= p < |args| ==> !PatternBound(args, bench, rules, p)
    ensures r.Failure? && r.error != NoPattern ==> FirstFault(args, bench, rules, |args|, r.error)
    ensures r.Success? ==> Realizes(args, bench, rules, r.value)
  {
    var st :- ScanPrefix(args, |args|, bench, rules);
    if st.patternIdx.None? then Failure(NoPattern)
    else Success(Plan(st.params, st.invoke, st.patternIdx.value, st.ignoreFn))
  }

  // ---------------------------------------------------------------------
  // The declarative account of a parameter list against a rule map.

  predicate Simple(a: FnArg) {
    a.Captured? && a.pat.IdentPat?
  }

  function NameOf(a: FnArg): string
    requires Simple(a)
  {
    a.pat.name
  }

  /** The declared parameter a bench function reserves for the bencher. */
  predicate IsBenchSlot(bench: bool, j: nat) {
    bench && j == 0
  }

  /** How far declared positions are from plan positions. */
  function Offset(bench: bool): nat {
    if bench then 1 else 0
  }

  /** How many of the first `n` declared parameters take no plan position. */
  function Shift(bench: bool, n: nat): nat {
    if bench && n > 0 then 1 else 0
  }

  /** Parameter `j` is bound to a pattern rule. */
  predicate PatternBound(args: seq<FnArg>, bench: bool, rules: map<string, Rule>, j: nat)
    requires j < |args|
  {
    && !IsBenchSlot(bench, j)
    && Simple(args[j])
    && NameOf(args[j]) in rules
    && rules[NameOf(args[j])].kind == Pattern
  }

  /** What is wrong with parameter `j` on its own: a shape that is not a plain
      binding, a name without a rule, or a second pattern binding. */
  function Fault(args: seq<FnArg>, bench: bool, rules: map<string, Rule>, j: nat): Option<MatchError>
    requires j < |args|
  {
    if !Simple(args[j]) then Some(UnexpectedArgument(j))
    else if IsBenchSlot(bench, j) then None
    else if NameOf(args[j]) !in rules then Some(MappingNotDefined(NameOf(args[j])))
    else if PatternBound(args, bench, rules, j) && exists i :: 0 <= i < j && PatternBound(args, bench, rules, i)
    then Some(TwoPatterns(NameOf(args[j])))
    else None
  }

  predicate NoFaults(args: seq<FnArg>, bench: bool, rules: map<string, Rule>) {
    forall j :: 0 <= j < |args| ==> Fault(args, bench, rules, j).None?
  }

  /** `e` is the fault of the first faulty parameter among the first `n`. */
  predicate FirstFault(args: seq<FnArg>, bench: bool, rules: map<string, Rule>, n: nat, e: MatchError)
    requires n <= |args|
  {
    exists j :: 0 <= j < n && Fault(args, bench, rules, j) == Some(e)
      && forall i :: 0 <= i < j ==> Fault(args, bench, rules, i).None?
  }

  /** The rule of the parameter at plan position `k`. */
  function RuleAt(args: seq<FnArg>, bench: bool, rules: map<string, Rule>, k: nat): Rule
    requires k + Offset(bench) < |args|
    requires Simple(args[k + Offset(bench)]) && NameOf(args[k + Offset(bench)]) in rules
  {
    rules[NameOf(args[k + Offset(bench)])]
  }

  /** Plan entry `k` is declared parameter `k + Offset(bench)`: it holds that
      parameter's rule value and is built from `paths_arg[k]`. */
  predicate AlignedAt(args: seq<FnArg>, bench: bool, rules: map<string, Rule>, n: nat, params: seq<string>, invoke: seq<InvokeArg>, k: nat)
    requires n <= |args| && |invoke| == n && k < |params|
  {
    && k + Offset(bench) < n
    && Simple(args[k + Offset(bench)])
    && NameOf(args[k + Offset(bench)]) in rules
    && params[k] == RuleAt(args, bench, rules, k).value
    && invoke[k + Offset(bench)] == DeriveFromPath(args[k + Offset(bench)].ty, k)
  }

  /** Plan positions line up with the non-bench declared parameters, and a
      bench function passes its first parameter through. */
  predicate Aligned(args: seq<FnArg>, bench: bool, rules: map<string, Rule>, n: nat, params: seq<string>, invoke: seq<InvokeArg>)
    requires n <= |args|
  {
    && |invoke| == n
    && |params| == n - Shift(bench, n)
    && (forall k :: 0 <= k < |params| ==> AlignedAt(args, bench, rules, n, params, invoke, k))
    && (bench && n > 0 ==> Simple(args[0]) && invoke[0] == PassThrough(NameOf(args[0])))
  }

  /** What the loop has established after `n` parameters. */
  predicate ScanInvariant(args: seq<FnArg>, bench: bool, rules: map<string, Rule>, n: nat, st: Scan)
    requires n <= |args|
  {
    && Aligned(args, bench, rules, n, st.params, st.invoke)
    && (st.patternIdx.None? <==> forall j :: 0 <= j < n ==> !PatternBound(args, bench, rules, j))
    && (st.patternIdx.None? ==> st.ignoreFn.None?)
    && (st.patternIdx.Some? ==> PatternSlot(args, bench, rules, n, st.params, st.patternIdx.value, st.ignoreFn))
  }

  /** `p` is the one plan position bound to a pattern among the first `n`
      parameters, and `ignoreFn` is that rule's predicate. */
  predicate PatternSlot(args: seq<FnArg>, bench: bool, rules: map<string, Rule>, n: nat, params: seq<string>, p: nat, ignoreFn: Option<Path>)
    requires n <= |args|
  {
    && p < |params|
    && p + Offset(bench) < n
    && PatternBound(args, bench, rules, p + Offset(bench))
    && params[p] == rules[NameOf(args[p + Offset(bench)])].value
    && ignoreFn == rules[NameOf(args[p + Offset(bench)])].ignoreFn
    && forall j :: 0 <= j < n && PatternBound(args, bench, rules, j) ==> j == p + Offset(bench)
  }

  /** A plan is the one `files_internal` promises for this signature. */
  predicate Realizes(args: seq<FnArg>, bench: bool, rules: map<string, Rule>, plan: Plan) {
    && Aligned(args, bench, rules, |args|, plan.params, plan.invoke)
    && PatternSlot(args, bench, rules, |args|, plan.params, plan.patternIdx, plan.ignoreFn)
  }

  /** One turn of the loop keeps the invariant, or stops at the first fault. */
  lemma StepSpec(args: seq<FnArg>, j: nat, bench: bool, rules: map<string, Rule>, st: Scan)
    requires j < |args|
    requires forall i :: 0 <= i < j ==> Fault(args, bench, rules, i).None?
    requires ScanInvariant(args, bench, rules, j, st)
    ensures var r := Step(args, j, bench, rules, st);
            && (r.Success? <==> Fault(args, bench, rules, j).None?)
            && (r.Failure? ==> FirstFault(args, bench, rules, j + 1, r.error))
            && (r.Success? ==> ScanInvariant(args, bench, rules, j + 1, r.value))
  {
    var r := Step(args, j, bench, rules, st);
    assert (exists i :: 0 <= i < j && PatternBound(args, bench, rules, i)) <==> st.patternIdx.Some?;
    if r.Failure? {
      assert Fault(args, bench, rules, j) == Some(r.error);
    } else if IsBenchSlot(bench, j) {
      assert !PatternBound(args, bench, rules, j);
    } else {
      StepBinds(args, j, bench, rules, st);
    }
  }

  /** The turn that binds a non-bench parameter appends its rule value and its
      path index, and records it when it is the pattern. */
  lemma StepBinds(args: seq<FnArg>, j: nat, bench: bool, rules: map<string, Rule>, st: Scan)
    requires j < |args| && !IsBenchSlot(bench, j)
    requires ScanInvariant(args, bench, rules, j, st)
    requires (exists i :: 0 <= i < j && PatternBound(args, bench, rules, i)) <==> st.patternIdx.Some?
    requires Step(args, j, bench, rules, st).Success?
    ensures ScanInvariant(args, bench, rules, j + 1, Step(args, j, bench, rules, st).value)
  {
    var st' := Step(args, j, bench, rules, st).value;
    var off := Offset(bench);
    var rule := rules[NameOf(args[j])];
    assert j - off == |st.params|;
    assert |st'.params| == j + 1 - Shift(bench, j + 1);
    assert st'.params == st.params + [rule.value];
    assert st'.invoke == st.invoke + [DeriveFromPath(args[j].ty, j - off)];
    var n' := j + 1;
    forall k | 0 <= k < |st'.params|
      ensures AlignedAt(args, bench, rules, n', st'.params, st'.invoke, k)
    {
      if k < |st.params| {
        assert AlignedAt(args, bench, rules, j, st.params, st.invoke, k);
        assert st'.params[k] == st.params[k];
        assert st'.invoke[k + off] == st.invoke[k + off];
      } else {
        assert k + off == j;
      }
    }
    if bench {
      assert st'.invoke[0] == st.invoke[0];
    }
    assert Aligned(args, bench, rules, j + 1, st'.params, st'.invoke);
    if rule.kind == Pattern {
      assert st.patternIdx.None?;
      assert PatternBound(args, bench, rules, j);
      forall i | 0 <= i < j + 1 && PatternBound(args, bench, rules, i)
        ensures i == j
      {
      }
    } else {
      assert !PatternBound(args, bench, rules, j);
      if st.patternIdx.Some? {
        var p := st.patternIdx.value;
        assert st'.params[p] == st.params[p];
      }
    }
  }

  // ---------------------------------------------------------------------
  // Consequences for callers of the matcher.

  /** The diagnostic is decided by the first faulty parameter: whatever
      follows it, the matcher reports exactly that fault. */
  lemma MatchReportsFirstFault(args: seq<FnArg>, bench: bool, rules: map<string, Rule>, j: nat)
    requires j < |args|
    requires Fault(args, bench, rules, j).Some?
    requires forall i :: 0 <= i < j ==> Fault(args, bench, rules, i).None?
    ensures MatchSignature(args, bench, rules) == Failure(Fault(args, bench, rules, j).value)
  {
    var r := MatchSignature(args, bench, rules);
    assert !NoFaults(args, bench, rules);
    assert r.Failure? && r.error != NoPattern;
    var j' :| 0 <= j' < |args| && Fault(args, bench, rules, j') == Some(r.error)
              && forall i :: 0 <= i < j' ==> Fault(args, bench, rules, i).None?;
    assert j' == j;
  }

  /** A successful match binds exactly one parameter to a pattern rule, and
      two pattern-bound parameters always make the match fail. */
  lemma MatchNeedsExactlyOnePattern(args: seq<FnArg>, bench: bool, rules: map<string, Rule>)
    ensures MatchSignature(args, bench, rules).Success? ==>
              exists p :: 0 <= p < |args| && PatternBound(args, bench, rules, p)
                && forall q :: 0 <= q < |args| && PatternBound(args, bench, rules, q) ==> q == p
    ensures (exists p, q :: 0 <= p < q < |args| && PatternBound(args, bench, rules, p) && PatternBound(args, bench, rules, q))
              ==> MatchSignature(args, bench, rules).Failure?
  {
    var r := MatchSignature(args, bench, rules);
    if r.Success? {
      var plan := r.value;
      var p := plan.patternIdx + Offset(bench);
      assert PatternSlot(args, bench, rules, |args|, plan.params, plan.patternIdx, plan.ignoreFn);
      assert PatternBound(args, bench, rules, p);
    }
    if exists p, q :: 0 <= p < q < |args| && PatternBound(args, bench, rules, p) && PatternBound(args, bench, rules, q) {
      var p, q :| 0 <= p < q < |args| && PatternBound(args, bench, rules, p) && PatternBound(args, bench, rules, q);
      assert Fault(args, bench, rules, q).Some?;
    }
  }

  // ---------------------------------------------------------------------
  // The single pattern rule. The documentation of `files_internal` asks for
  // exactly one pattern rule in the annotation, but the loop only looks up
  // the rules of declared parameters: a pattern rule that no parameter uses
  // is accepted without a word.

  /** `fn t(a: T)` under `{ a in "x", b in "y" }` matches, although the
      annotation defines two pattern rules. */
  lemma UnusedPatternRuleAccepted()
    ensures var args := [Captured(IdentPat("a"), Named("T"))];
            var rules := map["a" := Rule("a", Pattern, "x", None), "b" := Rule("b", Pattern, "y", None)];
            && |PatternNames(rules)| == 2
            && MatchSignature(args, false, rules).Success?
            && MatchSignatureChecked(args, false, rules) == Failure(NoPattern)
  {
    var args := [Captured(IdentPat("a"), Named("T"))];
    var rules := map["a" := Rule("a", Pattern, "x", None), "b" := Rule("b", Pattern, "y", None)];
    assert PatternBound(args, false, rules, 0);
    assert PatternNames(rules) == {"a", "b"};
  }

  /** The matcher with the documented check: the annotation defines exactly
      one pattern rule, reported like a missing pattern otherwise. */
  function MatchSignatureChecked(args: seq<FnArg>, bench: bool, rules: map<string, Rule>): (r: Result<Plan, MatchError>)
    ensures r.Success? <==> MatchSignature(args, bench, rules).Success? && |PatternNames(rules)| == 1
    ensures r.Success? ==> Realizes(args, bench, rules, r.value)
    ensures r.Success? ==> PatternNames(rules) == {NameOf(args[r.value.patternIdx + Offset(bench)])}
    ensures r.Failure? && MatchSignature(args, bench, rules).Success? ==> r.error == NoPattern
  {
    var plan :- MatchSignature(args, bench, rules);
    if |PatternNames(rules)| != 1 then Failure(NoPattern)
    else
      var name := NameOf(args[plan.patternIdx + Offset(bench)]);
      assert name in PatternNames(rules);
      SingletonSet(PatternNames(rules), name);
      Success(plan)
  }

  lemma SingletonSet<T>(s: set<T>, x: T)
    requires |s| == 1 && x in s
    ensures s == {x}
  {
    assert |s - {x}| == 0;
  }

  /** With the check, the pattern rule of a successful match is the one rule
      of the annotation bound to a pattern, and every rule the annotation
      binds to a pattern is used by the signature. */
  lemma CheckedMatchUsesEveryPatternRule(args: seq<FnArg>, bench: bool, rules: map<string, Rule>, k: string)
    requires MatchSignatureChecked(args, bench, rules).Success?
    requires k in rules && rules[k].kind == Pattern
    ensures exists j :: 0 <= j < |args| && PatternBound(args, bench, rules, j) && NameOf(args[j]) == k
  {
    var plan := MatchSignatureChecked(args, bench, rules).value;
    var j := plan.patternIdx + Offset(bench);
    assert k in PatternNames(rules);
    assert PatternBound(args, bench, rules, j);
  }

  /** Positions in an error message move with the parameters. */
  function ShiftError(e: MatchError): MatchError {
    match e
    case UnexpectedArgument(p) => UnexpectedArgument(p + 1)
    case _ => e
  }

  /** A bench function is matched as the same function without its first
      parameter: the bench parameter's name is never looked up, plan entry
      `i` comes from declared parameter `i + 1` and reads `paths_arg[i]`, and
      the only other difference is the bencher passed through in front. */
  lemma {:induction false} BenchScanShift(args: seq<FnArg>, rules: map<string, Rule>, n: nat)
    requires 0 < |args| && Simple(args[0]) && n < |args|
    ensures BenchShifted(args, ScanPrefix(args, n + 1, true, rules), ScanPrefix(args[1..], n, false, rules))
    decreases n
  {
    if n == 0 {
      BenchScanShiftBase(args, rules);
    } else {
      BenchScanShift(args, rules, n - 1);
      BenchScanShiftStep(args, rules, n);
    }
  }

  /** The bench turn at position 0 only passes the bencher through. */
  lemma BenchScanShiftBase(args: seq<FnArg>, rules: map<string, Rule>)
    requires 0 < |args| && Simple(args[0])
    ensures BenchShifted(args, ScanPrefix(args, 1, true, rules), ScanPrefix(args[1..], 0, false, rules))
  {
    var pt := PassThrough(NameOf(args[0]));
    var empty := Scan([], [], None, None);
    ScanPrefixUnfold(args, 1, true, rules);
    assert args[0] == Captured(IdentPat(NameOf(args[0])), args[0].ty);
    assert empty.invoke + [pt] == [pt];
    assert Step(args, 0, true, rules, empty) == Success(empty.(invoke := [pt]));
  }

  /** One more turn of both loops keeps them shifted. */
  lemma BenchScanShiftStep(args: seq<FnArg>, rules: map<string, Rule>, n: nat)
    requires 0 < n < |args| && Simple(args[0])
    requires BenchShifted(args, ScanPrefix(args, n, true, rules), ScanPrefix(args[1..], n - 1, false, rules))
    ensures BenchShifted(args, ScanPrefix(args, n + 1, true, rules), ScanPrefix(args[1..], n, false, rules))
  {
    var b := ScanPrefix(args, n, true, rules);
    var p := ScanPrefix(args[1..], n - 1, false, rules);
    ScanPrefixUnfold(args, n + 1, true, rules);
    ScanPrefixUnfold(args[1..], n, false, rules);
    if b.Success? {
      BenchStepShift(args, rules, n, p.value);
    }
  }

  /** One turn of the loop on top of the scan so far. */
  lemma ScanPrefixUnfold(args: seq<FnArg>, n: nat, bench: bool, rules: map<string, Rule>)
    requires 0 < n <= |args|
    ensures ScanPrefix(args, n - 1, bench, rules).Failure? ==>
              ScanPrefix(args, n, bench, rules) == Failure(ScanPrefix(args, n - 1, bench, rules).error)
    ensures ScanPrefix(args, n - 1, bench, rules).Success? ==>
              ScanPrefix(args, n, bench, rules) == Step(args, n - 1, bench, rules, ScanPrefix(args, n - 1, bench, rules).value)
  {
  }

  /** How a bench function's scan relates to the scan of its parameters after
      the first. */
  predicate BenchShifted(args: seq<FnArg>, b: Result<Scan, MatchError>, p: Result<Scan, MatchError>)
    requires 0 < |args| && Simple(args[0])
  {
    && (b.Success? <==> p.Success?)
    && (b.Failure? ==> b.error == ShiftError(p.error))
    && (b.Success? ==> b.value == p.value.(invoke := [PassThrough(NameOf(args[0]))] + p.value.invoke))
  }

  lemma BenchStepShift(args: seq<FnArg>, rules: map<string, Rule>, n: nat, st: Scan)
    requires 0 < n < |args| && Simple(args[0])
    ensures BenchShifted(args, Step(args, n, true, rules, st.(invoke := [PassThrough(NameOf(args[0]))] + st.invoke)),
                         Step(args[1..], n - 1, false, rules, st))
  {
    var pt := PassThrough(NameOf(args[0]));
    assert args[1..][n - 1] == args[n];
    var rb := Step(args, n, true, rules, st.(invoke := [pt] + st.invoke));
    var rp := Step(args[1..], n - 1, false, rules, st);
    if rb.Success? {
      assert rb.value.invoke == [pt] + rp.value.invoke;
    }
  }

  lemma BenchShift(args: seq<FnArg>, rules: map<string, Rule>)
    requires 0 < |args| && Simple(args[0])
    ensures var b := MatchSignature(args, true, rules);
            var p := MatchSignature(args[1..], false, rules);
            && (b.Success? <==> p.Success?)
            && (b.Failure? ==> b.error == ShiftError(p.error))
            && (b.Success? ==> b.value == p.value.(invoke := [PassThrough(NameOf(args[0]))] + p.value.invoke))
  {
    BenchScanShift(args, rules, |args| - 1);
  }

  // ---------------------------------------------------------------------
  // The trampoline: `paths_arg` in, the test function's arguments out.

  /** A value handed to the test function: the bencher, or the value derived
      from one path for one declared type. */
  datatype ArgValue = BencherArg | FromPath(ty: Ty, path: string)

  datatype InvokeError =
    | PathIndexOutOfBounds(index: nat)   // `paths_arg[idx]` panics
    | UnboundName(name: string)         // the generated code does not compile

  /** The trampoline's own parameter for the bencher. */
  const TrampolineBencher := "bencher"

  /** The corrected trampoline: the bench parameter receives the trampoline's
      bencher, every other parameter its path. */
  function Invoke(invoke: seq<InvokeArg>, paths: seq<string>): (r: Result<seq<ArgValue>, InvokeError>)
    decreases |invoke|
    ensures r.Success? <==> forall j :: 0 <= j < |invoke| && invoke[j].DeriveFromPath? ==> invoke[j].index < |paths|
    ensures r.Success? ==> |r.value| == |invoke|
    ensures r.Success? ==> forall j :: 0 <= j < |invoke| ==>
              r.value[j] == (if invoke[j].PassThrough? then BencherArg else FromPath(invoke[j].ty, paths[invoke[j].index]))
  {
    if |invoke| == 0 then Success([])
    else
      var first :- ResolveArg(invoke[0], paths);
      var rest :- Invoke(invoke[1..], paths);
      assert forall j :: 1 <= j < |invoke| ==> invoke[j] == invoke[1..][j - 1];
      Success([first] + rest)
  }

  function ResolveArg(a: InvokeArg, paths: seq<string>): Result<ArgValue, InvokeError> {
    match a
    case PassThrough(_) => Success(BencherArg)
    case DeriveFromPath(ty, i) => if i < |paths| then Success(FromPath(ty, paths[i])) else Failure(PathIndexOutOfBounds(i))
  }

  /** The values the test function receives: declared parameter `j` gets
      the value derived from `paths[j - Offset(bench)]` for its declared type, and a bench function's first parameter gets the bencher. */
  predicate DeliversPaths(args: seq<FnArg>, bench: bool, paths: seq<string>, values: seq<ArgValue>) {
    && |values| == |args|
    && |paths| + Shift(bench, |args|) == |args|
    && (forall j :: 0 <= j < |args| && !IsBenchSlot(bench, j) ==>
          Simple(args[j]) && values[j] == FromPath(args[j].ty, paths[j - Offset(bench)]))
    && (bench && |args| > 0 ==> values[0] == BencherArg)
  }

  /** The harness hands the trampoline one path per plan entry; with that,
      every declared parameter receives the path of its own plan position and
      the bench parameter receives the bencher. */
  lemma MatchedPlanInvokes(args: seq<FnArg>, bench: bool, rules: map<string, Rule>, paths: seq<string>)
    requires MatchSignature(args, bench, rules).Success?
    requires |paths| == |MatchSignature(args, bench, rules).value.params|
    ensures Invoke(MatchSignature(args, bench, rules).value.invoke, paths).Success?
    ensures DeliversPaths(args, bench, paths, Invoke(MatchSignature(args, bench, rules).value.invoke, paths).value)
  {
    var plan := MatchSignature(args, bench, rules).value;
    AlignedPlanDelivers(args, bench, rules, plan.params, plan.invoke, paths);
  }

  lemma AlignedPlanDelivers(args: seq<FnArg>, bench: bool, rules: map<string, Rule>, params: seq<string>, invoke: seq<InvokeArg>, paths: seq<string>)
    requires Aligned(args, bench, rules, |args|, params, invoke)
    requires |paths| == |params|
    ensures Invoke(invoke, paths).Success?
    ensures DeliversPaths(args, bench, paths, Invoke(invoke, paths).value)
  {
    InvokeIndicesInRange(args, bench, rules, |args|, params, invoke);
    var r := Invoke(invoke, paths);
    forall j | 0 <= j < |args| && !IsBenchSlot(bench, j)
      ensures Simple(args[j]) && r.value[j] == FromPath(args[j].ty, paths[j - Offset(bench)])
    {
      assert AlignedAt(args, bench, rules, |args|, params, invoke, j - Offset(bench));
    }
  }

  /** In an aligned plan every path index is a plan position. */
  lemma InvokeIndicesInRange(args: seq<FnArg>, bench: bool, rules: map<string, Rule>, n: nat, params: seq<string>, invoke: seq<InvokeArg>)
    requires n <= |args|
    requires Aligned(args, bench, rules, n, params, invoke)
    ensures forall j :: 0 <= j < n && invoke[j].DeriveFromPath? ==> invoke[j].index < |params|
    ensures bench && n > 0 ==> invoke[0].PassThrough?
  {
    forall j | 0 <= j < n && invoke[j].DeriveFromPath?
      ensures invoke[j].index < |params|
    {
      var k := j - Offset(bench);
      assert 0 <= k < |params|;
      assert AlignedAt(args, bench, rules, n, params, invoke, k);
    }
  }

  // ---------------------------------------------------------------------
  // The trampoline as `files_internal` writes it: the bench parameter is passed by
  // the name the user gave it, while the trampoline's own parameter is named
  // `bencher`; any other name is unbound in the generated body.

  function ResolveArgAsWritten(a: InvokeArg, paths: seq<string>): Result<ArgValue, InvokeError> {
    match a
    case PassThrough(name) => if name == TrampolineBencher then Success(BencherArg) else Failure(UnboundName(name))
    case DeriveFromPath(ty, i) => if i < |paths| then Success(FromPath(ty, paths[i])) else Failure(PathIndexOutOfBounds(i))
  }

  function InvokeAsWritten(invoke: seq<InvokeArg>, paths: seq<string>): (r: Result<seq<ArgValue>, InvokeError>)
    decreases |invoke|
    ensures r.Success? ==> r == Invoke(invoke, paths)
    ensures r.Success? ==> forall j :: 0 <= j < |invoke| && invoke[j].PassThrough? ==> invoke[j].name == TrampolineBencher
    ensures (forall j :: 0 <= j < |invoke| && invoke[j].PassThrough? ==> invoke[j].name == TrampolineBencher) ==>
              r == Invoke(invoke, paths)
  {
    if |invoke| == 0 then Success([])
    else
      var first :- ResolveArgAsWritten(invoke[0], paths);
      var rest :- InvokeAsWritten(invoke[1..], paths);
      assert forall j :: 1 <= j < |invoke| ==> invoke[j] == invoke[1..][j - 1];
      Success([first] + rest)
  }

  /** `fn scan(b: &mut Bencher, input: &str)` with `input in "..."` matches,
      yet the generated call names `b`, which the trampoline does not bind. */
  lemma BenchParameterNameUnbound()
    ensures var args := [Captured(IdentPat("b"), Reference(true, Named("Bencher"))),
                         Captured(IdentPat("input"), Reference(false, Named("str")))];
            var rules := map["input" := Rule("input", Pattern, "(.*)\\.in", None)];
            var plan := MatchSignature(args, true, rules);
            && plan.Success?
            && Invoke(plan.value.invoke, ["a.in"]).Success?
            && InvokeAsWritten(plan.value.invoke, ["a.in"]) == Failure(UnboundName("b"))
  {
    var args := [Captured(IdentPat("b"), Reference(true, Named("Bencher"))),
                 Captured(IdentPat("input"), Reference(false, Named("str")))];
    var rules := map["input" := Rule("input", Pattern, "(.*)\\.in", None)];
    assert PatternBound(args, true, rules, 1);
    MatchedPlanInvokes(args, true, rules, ["a.in"]);
  }
}
